=== FILE: README.md ===
# chatbot-back core, modelled in Dafny

This project models the logic of the chatbot backend that does not depend on
a browser, a database or a remote service:

- **Scraper.** `scrapeWebsite` reads one rendered page. It fills a record
  from fixed priority chains: name, email, phone, slogan and about. It
  collects social links and headlines in document order. When about, phone
  or email is still empty, it visits the first About-like and the first
  Contact-like link, and fills only the fields that are still empty
  (`scraper.dfy`, `extract.dfy`, `patterns.dfy`).
- **Scraped record.** The stored record and its team members, with the
  schema defaults (`scraped_data.dfy`).
- **Knowledge file.** The assistant's knowledge file: `sanitizeUrl`, the
  file name, and the text rendered from a stored record
  (`assistant_file.dfy`).
- **Chat request and stream.** The website context string and the
  completion request sent for a chat message (`chat_context.dfy`). The
  `'data'` handler of the streamed answer: a line buffer over the decoded
  chunks, blank, done and `data:` lines, the frames written to the client,
  and the chat record saved at the done marker (`chat_stream.dfy`).
- **Accounts.** The account lifecycle as transitions over a map from
  lower-cased email to user, with time in integer milliseconds: register,
  verifyOtp, resendOtp with its cooldown, login and googleLogin
  (`auth.dfy`, over the `User` schema in `user_schema.dfy`).

JavaScript behaviour the model follows is written out in `js_string.dfy`:
- `||` treats `""` as absent, so "first non-empty" is used instead of
  `Option` chaining;
- `trim` uses the ECMAScript white-space and line-terminator set;
- `split('\n')`, `join`, `replace` of the first occurrence, and ASCII
  `toLowerCase`.

The phone and email regular expressions of the scraper are concrete
leftmost-match scanners (`patterns.dfy`).

Each foreign primitive is a function-valued parameter, so every property
holds for every behaviour of it:

| primitive | parameter |
|---|---|
| cheerio queries over a rendered page | a `PageSnapshot` of the values the queries return |
| navigation | `Fetcher` |
| `new URL(href, base)` | `Resolver`, `None` where the constructor throws |
| `JSON.parse` of a stream payload | `DeltaParser` |
| `JSON.stringify` | `SocialJson`; a streamed frame is kept as its `Frame` value rather than its text |
| bcrypt compare | `PasswordCheck` |
| JWT signing | `Signer` |
| Google token verification | `GoogleVerifier` |

Plain parameters stand in for:
- the generated OTP and the new document id;
- the bcrypt hash;
- the clock;
- the scraped record that the chat lookup finds.

## Model

| member | source | states |
|---|---|---|
| Patterns.FirstPhoneMatch | src/scraper/scraper.service.ts:59-61 | a body phone match occurs in the text, starts with `+` or a digit, continues with digits, spaces, brackets, dots or dashes, and is at least 8 characters long; it starts at the leftmost position where a match starts and runs greedily up to the first character that cannot continue it; no match means no position of the text starts one |
| Patterns.FirstEmailMatch | src/scraper/scraper.service.ts:51-53 | a body email match occurs in the text and has a local part, `@`, a domain, a dot and two or more lower-case letters; it starts at the leftmost position where a match starts and its last label runs greedily up to the first character that is not a lower-case letter; no match means no position starts one |
| Patterns.AboutLinkReduces | src/scraper/scraper.service.ts:23 | the about pattern matches exactly the links that contain `about`, `our-story` or `who-we-are`, ignoring case |
| Patterns.ContactLinkReduces | src/scraper/scraper.service.ts:24-25 | the contact pattern matches exactly the links that contain `contact` or `get-in-touch`, ignoring case |
| JsString.FirstNonEmpty | src/scraper/scraper.service.ts:43-46 | `a or b or c` over strings: the first non-empty candidate, every earlier one being empty; `""` exactly when every candidate is empty |
| Extract.Name | src/scraper/scraper.service.ts:43-46 | the name is the og:site_name when non-empty; otherwise the trimmed title text when it is not blank; otherwise the trimmed text of the first h1 |
| Extract.InitialName | src/scraper/scraper.service.ts:29 | the name set before extraction is never empty: it falls back to `Unknown` |
| Extract.SchemeValue | src/scraper/scraper.service.ts:49-58 | a `mailto:`/`tel:` value is taken from the first anchor whose href starts with the scheme, with the scheme removed; with no such anchor it is `""` |
| Extract.BodyEmail | src/scraper/scraper.service.ts:51-53 | a non-empty body email occurs in the body text, is email-shaped, and is the leftmost greedy match; it is `""` exactly when no position of the body text starts a match |
| Extract.BodyPhone | src/scraper/scraper.service.ts:59-61 | a non-empty body phone occurs in the body text, starts with `+` or a digit, is at least 8 characters long, and is the leftmost greedy match; it is `""` exactly when no position of the body text starts a match |
| Extract.Email | src/scraper/scraper.service.ts:49-54 | the email is the first `mailto:` address when that is non-empty, and the body match otherwise |
| Extract.Phone | src/scraper/scraper.service.ts:57-62 | the phone is the first `tel:` number when that is non-empty, and the body match otherwise |
| Extract.MailtoWins | src/scraper/scraper.service.ts:49-54 | a non-empty `mailto:` address is the page's email, whatever the body text holds |
| Extract.PhoneSource | src/scraper/scraper.service.ts:57-62 | a non-empty `tel:` number is the page's phone; otherwise a non-empty phone is a body match of at least 8 characters starting with `+` or a digit |
| Extract.HrefsWhere | src/scraper/scraper.service.ts:66-128 | the kept hrefs are exactly the hrefs of the anchors passing the test: each kept one is such an href, and every passing anchor is kept |
| Extract.SocialHrefs | src/scraper/scraper.service.ts:65-71 | the social hrefs are exactly the anchors whose lower-cased href mentions facebook, twitter, linkedin, instagram or youtube |
| Extract.Headlines | src/scraper/scraper.service.ts:74-77 | every headline is non-empty and is the trimmed text of an h1/h2/h3, and every non-blank h1/h2/h3 text appears trimmed among them |
| Extract.HeadlinesAppend | src/scraper/scraper.service.ts:74-77 | one more heading in document order appends its trimmed text exactly when it is not blank, after the earlier headlines |
| Extract.Slogan | src/scraper/scraper.service.ts:80-92 | a non-empty meta description is the slogan; the slogan is `""` exactly when meta description and og:description are empty and the tagline element and the h2/h3 after the first h1 are blank |
| Extract.SloganChain | src/scraper/scraper.service.ts:80-92 | the slogan is the first non-empty of meta description, og:description, the trimmed tagline element, and the trimmed h2/h3 right after the first h1 |
| Extract.AboutParagraph | src/scraper/scraper.service.ts:108-116 | the paragraph fallback is the first paragraph mentioning `about` (any case), untrimmed; it is `""` exactly when no paragraph does |
| Extract.AboutChain | src/scraper/scraper.service.ts:95-118 | about is the first non-empty of meta description, the trimmed about blocks, the trimmed About sections, and the untrimmed first paragraph mentioning about |
| Extract.About | src/scraper/scraper.service.ts:95-118 | a non-empty meta description is the about text; about is `""` exactly when meta description is empty, the about blocks and About sections are blank and no paragraph mentions about |
| Extract.AboutPageAbout | src/scraper/scraper.service.ts:138-141 | the about page yields its trimmed about blocks when they are not blank, and its trimmed first paragraph otherwise; `""` exactly when both are blank |
| Extract.CandidateHrefs | src/scraper/scraper.service.ts:123-128 | every fallback candidate is a non-empty href not starting with `#` or `javascript`, and every such anchor is a candidate |
| Scraper.ResolveAll | src/scraper/scraper.service.ts:66-128 | resolving a list of hrefs succeeds exactly when every href resolves; the first failure rejects the scrape |
| Scraper.Primary | src/scraper/scraper.service.ts:27-118 | the seed-page draft exists exactly when every social href resolves; it carries the given url and userId, one link per social anchor, and the name, email, phone, about, headlines and slogan extracted from the seed page |
| Scraper.AboutTarget | src/scraper/scraper.service.ts:132 | the about page is the first candidate link matching the about pattern, and there is none exactly when no link matches |
| Scraper.ContactTarget | src/scraper/scraper.service.ts:147 | the contact page is the first candidate link matching the contact pattern, and there is none exactly when no link matches |
| Scraper.AboutFallback | src/scraper/scraper.service.ts:131-143 | without an about link nothing changes; a failed navigation to the about link rejects naming it; otherwise about becomes what that page yields and nothing else changes |
| Scraper.ContactFallback | src/scraper/scraper.service.ts:146-177 | without a contact link nothing changes; a failed navigation to the contact link rejects naming it; otherwise an empty phone and an empty email become what that page yields, a non-empty one is kept, and nothing else changes |
| Scraper.Fallback | src/scraper/scraper.service.ts:121-178 | with about, phone and email all filled no page is visited; otherwise an unresolvable candidate href rejects with that error, and the pass succeeds exactly when every candidate resolves and each page it must visit renders; only about, phone and email can change, and only when empty |
| Scraper.ScrapeWebsite | src/scraper/scraper.service.ts:14-186 | a failed navigation to the seed URL rejects; the scrape succeeds exactly when the seed renders, its social hrefs resolve and the fallback pass succeeds; a result carries the given url and userId |
| Scraper.Persisted | src/scraper/scraper.service.ts:181-182 | the stored record has no links, team, pages or category, and keeps the scraped url, email, phone and about |
| Scraper.SeedFieldsSurvive | src/scraper/scraper.service.ts:43-118 | name, slogan, headlines and the resolved social links come from the seed page alone; a non-empty seed email, phone or about is the final one |
| Scraper.MailtoNeverLoses | src/scraper/scraper.service.ts:49-54 | a `mailto:` address on the seed page is the scraped email, whatever the other pages hold |
| Scraper.NoFallbackWhenComplete | src/scraper/scraper.service.ts:121 | when the seed page yields about, phone and email, no other page affects the result |
| Scraper.AboutFromAboutPage | src/scraper/scraper.service.ts:131-142 | an empty seed about is replaced by what the first about link's page yields |
| Scraper.PhoneFromContactPage | src/scraper/scraper.service.ts:146-163 | an empty seed phone is replaced by what the first contact link's page yields |
| Scraper.EmailFromContactPage | src/scraper/scraper.service.ts:146-175 | an empty seed email is replaced by what the first contact link's page yields |
| Scraper.FallbackResolutionRejects | src/scraper/scraper.service.ts:121-128 | when the fallback is needed, an unresolvable candidate href rejects the whole scrape with an invalid-URL error |
| Scraper.AboutNavigationRejects | src/scraper/scraper.service.ts:131-134 | a missing about whose about link cannot be rendered rejects the whole scrape |
| Scraper.ContactNavigationRejects | src/scraper/scraper.service.ts:146-149 | a missing phone or email whose contact link cannot be rendered rejects the whole scrape |
| Scraper.NameCanBeEmpty | src/scraper/scraper.service.ts:29-46 | a page without site name, title or h1 starts named `Unknown` and ends named `""`: the default is always overwritten |
| Scraper.HrefsWhereAppend | src/scraper/scraper.service.ts:66-71 | scanning one more anchor appends its href exactly when it passes, keeping document order |
| Scraper.SocialDuplicatesKept | src/scraper/scraper.service.ts:66-71 | two anchors with the same social href give the link twice |
| ScrapedDataSchema.Stored | src/scraper/schemas/scraped-data.schema.ts:30-68 | a record built from partial input has an empty team, pages and links when those are left out, and keeps a given url |
| ScrapedDataSchema.StoredKeepsGiven | src/scraper/schemas/scraped-data.schema.ts:32-67 | defaults only fill gaps: a record given in full is stored unchanged |
| ScrapedDataSchema.StoredDefaults | src/scraper/schemas/scraped-data.schema.ts:54-67 | a record built from nothing has no team members, pages or links |
| AssistantFile.SanitizeUrl | src/openai_assistant/openai_assistant.service.ts:32-34 | the sanitized name has the URL's length and only characters in `[a-z0-9_]`; digits and lower-case letters are kept, upper-case letters lowered, anything else becomes `_` |
| AssistantFile.SanitizeIdempotent | src/openai_assistant/openai_assistant.service.ts:33 | sanitizing twice equals sanitizing once |
| AssistantFile.SanitizeNotInjective | src/openai_assistant/openai_assistant.service.ts:33-40 | `A.b` and `a-b` get the same file name |
| AssistantFile.FileName | src/openai_assistant/openai_assistant.service.ts:37-40 | the file name is the sanitized URL followed by `.txt`; every character before the extension is in `[a-z0-9_]`, so it has no path separator and is neither `.` nor `..`, and joined to the files directory it names a file directly inside it |
| AssistantFile.ContentStartsWithUrl | src/openai_assistant/openai_assistant.service.ts:42-65 | the written file starts with the `Website-URL:` line: trimming removes only the template's leading newline |
| AssistantFile.ContentEndsWithPages | src/openai_assistant/openai_assistant.service.ts:62-65 | when the last page block does not end in white space, the file ends with the pages heading, a newline and the whole pages section |
| AssistantFile.ContentWithoutPages | src/openai_assistant/openai_assistant.service.ts:62-65 | with no stored page the file ends with `Pages:` |
| AssistantFile.PagesInStoredOrder | src/openai_assistant/openai_assistant.service.ts:63 | a page stored after others is rendered after them, separated by a blank line |
| AssistantFile.MissingRendersAsEmpty | src/openai_assistant/openai_assistant.service.ts:52-57 | a missing member name, email, phone, role or address renders the same as an empty one |
| AssistantFile.EmptyTeamRendersNothing | src/openai_assistant/openai_assistant.service.ts:48-62 | with no team member the team line is followed directly by the pages heading |
| AssistantFile.Content | src/openai_assistant/openai_assistant.service.ts:42-65 | the written text is never empty, starts and ends with a non-space character, and is shorter than the template it trims |
| ChatContext.OrNA | src/openai/openai.service.ts:51-59 | a context value is never empty: a non-empty value is shown as is and an empty one as `N/A` |
| ChatContext.MemberEntry | src/openai/openai.service.ts:36-47 | each member entry opens with its `--- Team Member n ---` heading |
| ChatContext.MemberFieldsShown | src/openai/openai.service.ts:38-42 | a member entry shows the member's name, role, email, phone and address on their own lines, each as the value when non-empty and `N/A` when missing or empty |
| ChatContext.MemberLinksShown | src/openai/openai.service.ts:43-46 | a member entry shows the Facebook, Instagram and LinkedIn links joined by a comma and a space, and `N/A` for a platform without links or a member without links |
| ChatContext.TeamDetails | src/openai/openai.service.ts:34-49 | the team details are empty exactly when the team is |
| ChatContext.PagesText | src/openai/openai.service.ts:59 | the pages text is empty exactly when there is no page, or one page whose texts join to `""` |
| ChatContext.Values | src/openai/openai.service.ts:50-60 | each of the nine context values is the record's value when non-empty and `N/A` otherwise, so none is empty |
| ChatContext.Context | src/openai/openai.service.ts:32-61 | the context is `""` exactly when no record is found; otherwise it is the nine labelled lines in template order followed by the closing indentation |
| ChatContext.RequestMessages | src/openai/openai.service.ts:63-78 | the request is the system prompt, then `Website Context:`, a newline and the context, then the visitor's message as the user |
| ChatContext.ContextShowsLine | src/openai/openai.service.ts:50-60 | with a record, the context holds each label on its own line followed by the record's value when non-empty and `N/A` when empty |
| ChatContext.EmptyRecordShowsNA | src/openai/openai.service.ts:51-57 | a record with empty name, email, phone, about and slogan shows `N/A` on each of those lines |
| ChatContext.EmptyTeamShowsNA | src/openai/openai.service.ts:58 | a record without team members shows `Team:N/A` |
| ChatContext.TeamShowsEntries | src/openai/openai.service.ts:34-58 | a team shows its entries joined by newlines, the first headed `Team Member 1` |
| ChatContext.EntryNumber | src/openai/openai.service.ts:37 | the i-th entry's heading carries the decimal number i + 1 |
| ChatContext.PagesShowNA | src/openai/openai.service.ts:59 | a single page without texts shows `N/A` |
| ChatContext.TwoPagesShowSeparator | src/openai/openai.service.ts:59 | two pages without texts show the bare separator `, ` rather than `N/A` |
| ChatStream.SplitLines | src/openai/openai.service.ts:92-93 | splitting on newlines gives lines without newlines and a tail without one, and loses nothing: the lines, each followed by a newline, then the tail, give back the text |
| ChatStream.LinesUnique | src/openai/openai.service.ts:92-93 | that decomposition of a text into newline-free lines and a tail is unique |
| ChatStream.JoinAsLines | src/openai/openai.service.ts:92-93 | joining on newlines equals all lines but the last, each followed by a newline, then the last |
| ChatStream.SplitLinesExtend | src/openai/openai.service.ts:90-93 | splitting a text extended by more input equals splitting the text, then splitting its tail plus the new input |
| ChatStream.Payload | src/openai/openai.service.ts:110 | the payload of a `data: ` line is the trimmed text after the prefix |
| ChatStream.TrimSkipsLeadingSpace | src/openai/openai.service.ts:110 | the `\s*` skipped after `data:` does not change the trimmed payload |
| ChatStream.RoleOf | src/openai/openai.service.ts:113 | the frame role is never empty: the delta's role when it is non-empty, and `assistant` when it is missing or empty |
| ChatStream.Classify | src/openai/openai.service.ts:96-109 | a line is blank exactly when its trim is empty, done exactly when its trim is the done marker, and an event exactly when it is neither and starts with `data: ` |
| ChatStream.Emitted | src/openai/openai.service.ts:111-121 | a line writes one frame exactly when it is an event whose payload parses to a delta with non-empty content; the frame holds that content and the role |
| ChatStream.Interpret | src/openai/openai.service.ts:95-123 | the loop stops exactly when some line is done, and every frame written has non-empty content and role |
| ChatStream.InterpretAppend | src/openai/openai.service.ts:95-123 | lines before any done line write their frames ahead of the frames of the lines after them |
| ChatStream.LineEffects | src/openai/openai.service.ts:99-117 | a chunk writes its frames in order; when it reached a done line, exactly one chat record save and then the end of the response follow the frames, and neither happens otherwise; the record holds the website, the message, the full response and role `assistant` |
| ChatStream.OnData | src/openai/openai.service.ts:89-124 | after a chunk the buffer has no newline and old buffer plus chunk is its complete lines then the buffer; the full response grows by exactly the content written; the response ends exactly when a complete line is done, and a chat record is saved exactly when the response ends |
| ChatStream.Feed | src/openai/openai.service.ts:89-124 | over several chunks the full response grows by exactly the content written, the response is ended exactly when some chunk ended it, and after at least one chunk the buffer has no newline |
| ChatStream.BufferIsLastLine | src/openai/openai.service.ts:92-93 | the retained buffer is the text after the last newline of old buffer plus chunk |
| ChatStream.BlankLineIgnored | src/openai/openai.service.ts:96 | a whitespace-only line changes neither frames nor stopping |
| ChatStream.DoneLineStops | src/openai/openai.service.ts:98-106 | a done line stops the chunk: the lines after it write nothing |
| ChatStream.ContentLineWrites | src/openai/openai.service.ts:109-117 | a `data: ` line with content writes exactly one frame ahead of the rest |
| ChatStream.UnusableDataLineIgnored | src/openai/openai.service.ts:111-121 | an unparsable payload, or a delta without content, writes nothing |
| ChatStream.OtherLineIgnored | src/openai/openai.service.ts:109 | a line that is neither done nor starts with `data: ` writes nothing |
| ChatStream.IndentedDataLineIgnored | src/openai/openai.service.ts:98-109 | a `data: ` line with a leading space is ignored, since only the done test trims |
| ChatStream.FeedLinesSplitWhole | src/openai/openai.service.ts:89-93 | the lines seen chunk by chunk are the lines of the whole concatenated input |
| ChatStream.FeedWithoutDone | src/openai/openai.service.ts:89-124 | without a done line, feeding chunks writes the frames of all complete lines in order and accumulates their contents |
| ChatStream.ChunkingInvisible | src/openai/openai.service.ts:89-124 | without a done line, how the stream is cut into text chunks at character boundaries does not change what is written, the full response or the buffer |
| ChatStream.LaterChunksStillHandled | src/openai/openai.service.ts:105-106 | ending the response does not stop later chunks from being handled |
| UserSchema.Create | src/users/schemas/user.schema.ts:6-32 | a user is saved exactly when name and email are non-empty; the email is stored lower-cased, otpVerified defaults to false and loginProvider to `local` |
| UserSchema.CreatedEmailIsLower | src/users/schemas/user.schema.ts:12-13 | a saved email is already lower-case |
| UserSchema.Key | src/users/schemas/user.schema.ts:12-13 | an email's lookup key has the same length and is lower-case |
| Auth.Register | src/auth/auth.service.ts:24-46 | a registered email gives Conflict and leaves the store unchanged; success adds an unverified `local` user under the lower-cased email whose code expires 300000 ms later |
| Auth.VerifyOtp | src/auth/auth.service.ts:49-72 | in this order: an unknown email gives Unauthorized `Invalid email`, a verified user BadRequest `OTP already verified`, a different code Unauthorized `Invalid OTP`, and a missing or past expiry BadRequest `OTP expired. Please request a new one.`; success happens exactly when none applies, and marks the user verified, empties the code and clears the expiry (see Left out); failure changes nothing |
| Auth.CeilDiv | src/auth/auth.service.ts:84-86 | `Math.ceil(a / b)` for positive b: the least q with a <= q * b |
| Auth.CooldownInMilliseconds | src/auth/auth.service.ts:84-87 | more than 120 whole-or-partial seconds remain exactly when more than 120000 ms remain |
| Auth.ResendOtp | src/auth/auth.service.ts:74-102 | an unknown email gives Unauthorized `Invalid email`, a verified user BadRequest `Email already verified.`, and more than 120 s left on the code BadRequest `Please wait before requesting a new OTP.`; success sets the new code and an expiry 300000 ms later; failure changes nothing |
| Auth.Login | src/auth/auth.service.ts:104-121 | unknown email and unverified user fail before the password is checked; success exactly for a verified user whose password matches, returning a token for that user's id and email |
| Auth.GoogleLogin | src/auth/auth.service.ts:124-166 | sign-in succeeds exactly when the token verifies to a non-empty email that is either stored already or comes with a non-empty name; every failure is `Google login failed` and leaves the store unchanged; an existing user is not modified; a new email creates a verified `google` user with an empty password |
| Auth.RegisterPreserves | src/auth/auth.service.ts:24-46 | register keeps every stored user well-formed under its lower-cased email |
| Auth.VerifyOtpPreserves | src/auth/auth.service.ts:49-72 | verifyOtp keeps the store well-formed |
| Auth.ResendOtpPreserves | src/auth/auth.service.ts:74-102 | resendOtp keeps the store well-formed |
| Auth.GoogleLoginPreserves | src/auth/auth.service.ts:124-166 | googleLogin keeps the store well-formed |
| Auth.RegisterIgnoresCase | src/auth/auth.service.ts:25-26 | after a registration the same email in another case is a Conflict |
| Auth.VerifyTwiceFails | src/auth/auth.service.ts:55 | a second verification fails with BadRequest and changes nothing |
| Auth.CodeValidFiveMinutes | src/auth/auth.service.ts:30-62 | a fresh code verifies exactly up to and including 300000 ms after registration |
| Auth.LoginNeedsVerification | src/auth/auth.service.ts:108-109 | right after registration login fails with `Please verify OTP first`, whatever the password |
| Auth.Lifecycle | src/auth/auth.service.ts:24-121 | register, verify within five minutes, then login with the right password yields a session for the new user |
| Auth.ResendWindow | src/auth/auth.service.ts:83-92 | after registration a new code can be requested exactly from 120 s before the old one expires |
| Auth.ResendReplacesCode | src/auth/auth.service.ts:94-97 | after a resend the previous code is an invalid OTP |
| Auth.GoogleSkipsVerification | src/auth/auth.service.ts:141-157 | Google login succeeds for an unverified local account and leaves it unverified |
| Auth.GoogleCreatesAccount | src/auth/auth.service.ts:141-162 | a verified token for a new email with a name adds exactly one user, verified, with provider `google`, an empty password, that name and the given id, and signs it in |
| Auth.GoogleNeedsName | src/auth/auth.service.ts:141-162 | a verified token for a new email without a name fails the required name and stores nothing |
| Auth.GoogleAccountVerified | src/auth/auth.service.ts:144-152 | a user created by Google login can log in by password exactly when the check accepts the empty stored password |

## Left out

- Browser navigation, HTML retrieval and closing the browser are not modelled. A page is the `PageSnapshot` the fetcher returns, and cheerio's selector evaluation is folded into the snapshot's fields.
- Mongoose persistence is a value. The scraper's save is `Persisted`, and the user service is a map from lower-cased email to user. The race between the existence check and the unique index is not modelled, because the model is sequential.
- The chat lookup (`findOne` on the URL, newest first) is a parameter: `Context` takes the record found, if any.
- The fetcher is a pure function of the URL, so a URL visited twice yields the same snapshot; a site that changes between the seed visit and a fallback visit to the same URL is not modelled.
- Sending mail is left out, and so is a mail failure after a user is stored. Both are remote I/O.
- HTTP calls to OpenAI and the file system write are left out. So are `createAssistant`, `updateAssistant`, `listAssistants`, `getAssistant`, `uploadFile` and the `status` update. These are remote or file I/O over the modelled file name and content.
- The stream's `'end'` and `'error'` handlers only log or end the response. The decoding of a `Buffer` chunk into text is also left out: each chunk is given as text. Each chunk is decoded on its own (`chunk.toString()`, src/openai/openai.service.ts:90), so a multi-byte UTF-8 character split across two chunks becomes replacement characters; the model, whose chunks are already text, does not show this.
- `scrapeAll` and `getChatHistory` are plain database queries and are left out.
- Controllers, modules and the websocket gateway are wiring and are left out. So are `sendMessage` and `updateScrapedData`, which the controllers call but no shown service defines.
- Strings are sequences of Unicode characters rather than UTF-16 code units. `toLowerCase` is modelled on ASCII letters only.
- `JSON.parse` results whose content or role is not a string are folded into the `DeltaParser` oracle.
- The scraper does not degrade when a page fails: a failed navigation or URL resolution rejects the whole scrape. It has no sub-page crawl, team extraction, per-page text capture, phone separator stripping, link deduplication or link storage, and it ignores the category argument. The model follows the code.
- Scraper.ScrapeWebsite: its own contract states when it succeeds and the url, userId and seed-navigation cases, not the fields. The field-by-field result is stated by `SeedFieldsSurvive`, `MailtoNeverLoses`, `NoFallbackWhenComplete`, `AboutFromAboutPage`, `PhoneFromContactPage` and `EmailFromContactPage`, and the rejections by `FallbackResolutionRejects`, `AboutNavigationRejects` and `ContactNavigationRejects`.
- ChatStream.Feed: its own contract states how the full response accumulates, when the response is ended and that the buffer holds no newline; it does not state the frames written. The chunking behaviour is stated by `FeedWithoutDone` and `ChunkingInvisible` for streams without a done line. After a done line the rest of that chunk is skipped, which depends on where the chunk boundary falls.
- Auth.VerifyOtp: the update after a correct code writes `otpExpiresAt: undefined` (src/auth/auth.service.ts:65-69). The model reads that as clearing the expiry, which is what Mongoose 5 does. Mongoose 6 and later drop undefined keys from an update, so the old expiry would stay on the verified user. The source does not fix the Mongoose version. No modelled operation reads a verified user's expiry.
- ChatStream.LaterChunksStillHandled: after `res.end()`, a later chunk's `res.write` fails with a write-after-end error, so its frames never reach the client. `Written` counts what the handler writes, and `fullResponse` still grows, as the source does.

=== FILE: assistant_file.dfy ===
/**
 * The knowledge file written for an assistant: its name, derived from the
 * website URL, and its text, rendered from a stored scraping record.
 * `JSON.stringify` of a member's social links is an oracle parameter.
 */
module AssistantFile {
  import opened Wrappers
  import opened JsString
  import opened Patterns
  import opened ScrapedDataSchema

  // ---------------------------------------------------------------- file name

  /** The characters a sanitized name is made of: `[a-z0-9_]`. */
  predicate IsFileNameChar(c: char) {
    ('a' <= c <= 'z') || IsDigit(c) || c == '_'
  }

  /**
   * `url.replace(/[^a-z0-9]/gi, '_')`: with the `i` flag the class `[a-z]`
   * matches exactly the ASCII letters, so every other character is replaced.
   */
  function ReplaceNonAlnum(s: string): (r: string)
    ensures |r| == |s|
    ensures forall i :: 0 <= i < |s| ==> r[i] == (if IsAsciiLetter(s[i]) || IsDigit(s[i]) then s[i] else '_')
  {
    seq(|s|, i requires 0 <= i < |s| => if IsAsciiLetter(s[i]) || IsDigit(s[i]) then s[i] else '_')
  }

  /** `sanitizeUrl`: replace, then lower-case. */
  function SanitizeUrl(url: string): (r: string)
    ensures |r| == |url|
    ensures forall i :: 0 <= i < |r| ==> IsFileNameChar(r[i])
    ensures forall i :: 0 <= i < |url| && IsDigit(url[i]) ==> r[i] == url[i]
    ensures forall i :: 0 <= i < |url| && 'a' <= url[i] <= 'z' ==> r[i] == url[i]
    ensures forall i :: 0 <= i < |url| && 'A' <= url[i] <= 'Z' ==> r[i] as int == url[i] as int + 32
    ensures forall i :: 0 <= i < |url| && !IsAsciiLetter(url[i]) && !IsDigit(url[i]) ==> r[i] == '_'
  {
    ToLower(ReplaceNonAlnum(url))
  }

  /** Sanitizing a sanitized name changes nothing. */
  lemma SanitizeIdempotent(url: string)
    ensures SanitizeUrl(SanitizeUrl(url)) == SanitizeUrl(url)
  {
    var once := SanitizeUrl(url);
    var twice := SanitizeUrl(once);
    forall i | 0 <= i < |once|
      ensures twice[i] == once[i]
    {
    }
  }

  /** Two URLs that differ only in case and punctuation get the same file name. */
  lemma SanitizeNotInjective()
    ensures "A.b" != "a-b" && SanitizeUrl("A.b") == SanitizeUrl("a-b")
  {
    assert SanitizeUrl("A.b") == "a_b";
    assert SanitizeUrl("a-b") == "a_b";
  }

  /**
   * The knowledge file's name: the sanitized URL with a `.txt` extension.
   * It holds no path separator and is neither `.` nor `..`, so joining it to
   * the files directory names a file directly inside that directory.
   */
  function FileName(url: string): (r: string)
    ensures |r| == |url| + 4
    ensures r[..|url|] == SanitizeUrl(url) && r[|url|..] == ".txt"
    ensures forall i :: 0 <= i < |url| ==> IsFileNameChar(r[i])
    ensures '/' !in r && '\\' !in r
    ensures r != "." && r != ".."
  {
    var r := SanitizeUrl(url) + ".txt";
    assert forall i :: 0 <= i < |url| ==> r[i] == SanitizeUrl(url)[i];
    assert forall i :: |url| <= i < |r| ==> r[i] == ".txt"[i - |url|];
    r
  }

  // ---------------------------------------------------------------- file content

  /** `member.socialLinks || {}`: the object with no key set. */
  const NoSocialLinks: MemberSocialLinks := MemberSocialLinks(None, None, None, None)

  /** `JSON.stringify` of a member's social links. */
  type SocialJson = MemberSocialLinks -> string

  /** `${value || ''}` for an optional string. */
  function OrEmpty(o: Option<string>): string {
    o.GetOr("")
  }

  /** The entry rendered for one team member. */
  function MemberBlock(m: TeamMember, json: SocialJson): string {
    "\n      - Name: " + OrEmpty(m.name)
    + "\n        Email: " + OrEmpty(m.email)
    + "\n        Phone: " + OrEmpty(m.phone)
    + "\n        Role: " + OrEmpty(m.role)
    + "\n        Social: " + json(m.socialLinks.GetOr(NoSocialLinks))
    + "\n        Address: " + OrEmpty(m.address)
    + "\n    "
  }

  function MemberBlocks(team: seq<TeamMember>, json: SocialJson): (r: seq<string>)
    ensures |r| == |team|
    ensures forall i :: 0 <= i < |team| ==> r[i] == MemberBlock(team[i], json)
  {
    seq(|team|, i requires 0 <= i < |team| => MemberBlock(team[i], json))
  }

  /** One page: its URL, then its texts joined by `" | "`. */
  function PageBlock(p: PageTexts): string {
    "Page: " + p.url + "\nTexts: " + Join(p.texts, " | ")
  }

  function PageBlocks(pages: seq<PageTexts>): (r: seq<string>)
    ensures |r| == |pages|
    ensures forall i :: 0 <= i < |pages| ==> r[i] == PageBlock(pages[i])
  {
    seq(|pages|, i requires 0 <= i < |pages| => PageBlock(pages[i]))
  }

  /** The pages section: one block per stored page, separated by a blank line. */
  function PagesSection(pages: seq<PageTexts>): string {
    Join(PageBlocks(pages), "\n\n")
  }

  /** The first line of the file, up to the colon of the `About:` label. */
  function UrlPrefix(d: ScrapedData): string {
    "Website-URL: " + d.url + "\nAbout:"
  }

  /** The about value, headlines, slogan and links. */
  function Summary(d: ScrapedData): string {
    " " + d.about
    + "\nHeadlines: " + Join(d.headlines, ",")
    + "\nSlogan: " + d.slogan
    + "\nLinks: " + Join(d.links, ",")
  }

  /** The summary, then the team entries. */
  function Fields(d: ScrapedData, json: SocialJson): string {
    Summary(d) + "\nTeam:\n    " + Join(MemberBlocks(d.team, json), "\n")
  }

  const PagesHeading: string := "\n\nPages:"

  /** Everything of the template up to and including the `Pages:` line. */
  function Header(d: ScrapedData, json: SocialJson): string {
    UrlPrefix(d) + Fields(d, json) + PagesHeading
  }

  /** The template literal before trimming. */
  function Template(d: ScrapedData, json: SocialJson): string {
    "\n" + Header(d, json) + "\n" + PagesSection(d.pages) + "\n    "
  }

  /** The text written to the knowledge file: the trimmed template, never empty. */
  function Content(d: ScrapedData, json: SocialJson): (r: string)
    ensures r != [] && !IsSpace(r[0]) && !IsSpace(r[|r| - 1])
    ensures |r| < |Template(d, json)|
  {
    HeaderShape(d, json);
    var t := Template(d, json);
    assert t[1] == 'W' && !IsSpace(t[1]);
    assert IsSpace(t[0]);
    Trim(t)
  }

  /** The header opens with the URL line and closes with the pages heading. */
  lemma HeaderShape(d: ScrapedData, json: SocialJson)
    ensures var h := Header(d, json);
      && StartsWith(h, UrlPrefix(d)) && EndsWith(h, PagesHeading)
      && h[0] == 'W' && h[|h| - 1] == ':'
  {
    var u, f := UrlPrefix(d), Fields(d, json);
    assert u[0] == 'W';
    assert Header(d, json) == u + f + PagesHeading;
  }

  /** Trimming the template of an empty pages section leaves the header. */
  lemma TrimTemplate(h: string)
    requires h != [] && !IsSpace(h[0]) && !IsSpace(h[|h| - 1])
    ensures Trim("\n" + h + "\n" + "" + "\n    ") == h
  {
    assert IsBlank("\n") && IsBlank("\n\n    ");
    assert "\n" + h + "\n" + "" + "\n    " == "\n" + h + "\n\n    ";
    TrimSurrounded("\n", h, "\n\n    ");
  }

  /** The file begins with the website URL line: trimming removes only the template's leading newline there. */
  lemma ContentStartsWithUrl(d: ScrapedData, json: SocialJson)
    ensures StartsWith(Content(d, json), "Website-URL: " + d.url + "\nAbout:")
  {
    var h := Header(d, json);
    var u := UrlPrefix(d);
    HeaderShape(d, json);
    var m := h + "\n" + PagesSection(d.pages) + "\n    ";
    assert Template(d, json) == "\n" + m;
    assert m[..|u|] == u;
    assert IsBlank("\n");
    TrimKeepsPrefix("\n", m, u);
  }

  /** When the last page block does not end in whitespace, the file ends with the whole pages section. */
  lemma ContentEndsWithPages(d: ScrapedData, json: SocialJson)
    requires PagesSection(d.pages) != [] && !IsSpace(PagesSection(d.pages)[|PagesSection(d.pages)| - 1])
    ensures EndsWith(Content(d, json), PagesHeading + "\n" + PagesSection(d.pages))
  {
    HeaderShape(d, json);
    TrimmedTemplateEnds(Header(d, json), PagesSection(d.pages));
  }

  /** The trimmed template over a header ending in the pages heading ends with the heading and the pages. */
  lemma TrimmedTemplateEnds(h: string, ps: string)
    requires EndsWith(h, PagesHeading) && h[0] == 'W'
    requires ps != [] && !IsSpace(ps[|ps| - 1])
    ensures EndsWith(Trim("\n" + h + "\n" + ps + "\n    "), PagesHeading + "\n" + ps)
  {
    var m := h + ("\n" + ps);
    TemplateAround(h, ps);
    CoreEnds(h, ps);
    assert IsBlank("\n") && IsBlank("\n    ");
    TrimSurrounded("\n", m, "\n    ");
  }

  lemma TemplateAround(h: string, ps: string)
    ensures "\n" + h + "\n" + ps + "\n    " == "\n" + (h + ("\n" + ps)) + "\n    "
  {
  }

  /** The header and the pages, joined by a line feed: first and last characters, and the closing suffix. */
  lemma CoreEnds(h: string, ps: string)
    requires EndsWith(h, PagesHeading) && h[0] == 'W'
    requires ps != [] && !IsSpace(ps[|ps| - 1])
    ensures var m := h + ("\n" + ps);
      && m != [] && !IsSpace(m[0]) && !IsSpace(m[|m| - 1])
      && EndsWith(m, PagesHeading + "\n" + ps)
  {
    SuffixExtends(h, "\n" + ps, PagesHeading);
    assert PagesHeading + ("\n" + ps) == PagesHeading + "\n" + ps;
  }

  /** With no stored page the file ends with the pages heading. */
  lemma ContentWithoutPages(d: ScrapedData, json: SocialJson)
    requires d.pages == []
    ensures EndsWith(Content(d, json), PagesHeading)
  {
    HeaderShape(d, json);
    assert PagesSection(d.pages) == [];
    TrimTemplate(Header(d, json));
  }

  /** A page stored after others lands after them, separated by a blank line. */
  lemma PagesInStoredOrder(pages: seq<PageTexts>, p: PageTexts)
    requires |pages| > 0
    ensures PagesSection(pages + [p]) == PagesSection(pages) + "\n\n" + PageBlock(p)
  {
    assert PageBlocks(pages + [p]) == PageBlocks(pages) + [PageBlock(p)];
    JoinAppend(PageBlocks(pages), PageBlock(p), "\n\n");
  }

  /** A missing member field and an empty one render alike. */
  lemma MissingRendersAsEmpty(m: TeamMember, json: SocialJson)
    ensures MemberBlock(m.(name := None), json) == MemberBlock(m.(name := Some("")), json)
    ensures MemberBlock(m.(email := None), json) == MemberBlock(m.(email := Some("")), json)
    ensures MemberBlock(m.(phone := None), json) == MemberBlock(m.(phone := Some("")), json)
    ensures MemberBlock(m.(role := None), json) == MemberBlock(m.(role := Some("")), json)
    ensures MemberBlock(m.(address := None), json) == MemberBlock(m.(address := Some("")), json)
  {
  }

  /** A record without team members renders no member entry: the team line is followed directly by the pages heading. */
  lemma EmptyTeamRendersNothing(d: ScrapedData, json: SocialJson)
    requires d.team == []
    ensures Header(d, json) == UrlPrefix(d) + Summary(d) + "\nTeam:\n    " + PagesHeading
  {
    assert MemberBlocks(d.team, json) == [];
    assert Fields(d, json) == Summary(d) + "\nTeam:\n    " + "";
  }
}

=== FILE: auth.dfy ===
/**
 * The account lifecycle: registration with an emailed one-time code, code
 * verification, re-sending a code under a cooldown, password login and
 * Google sign-in, as transitions over the user store. The clock, password
 * hashing, token signing, Google token verification, id and code
 * generation are parameters.
 */
module Auth {
  import opened Wrappers
  import opened JsString
  import opened UserSchema

  /** How long a code stays valid: five minutes. */
  const OtpLifetime: int := 5 * 60 * 1000

  /** A new code may be requested once at most this many seconds of the current one remain. */
  const CooldownSeconds: int := 120

  /** The exceptions the service raises, with their messages. */
  datatype AuthError =
    | Conflict(message: string)
    | Unauthorized(message: string)
    | BadRequest(message: string)
    | Invalid(reason: ValidationError)

  /** A store after an operation, with what the operation returned. */
  datatype Outcome<T> = Outcome(store: Store, result: Result<T, AuthError>)

  /** The user fields returned to the client. */
  datatype PublicUser = PublicUser(id: string, name: string, email: string)

  function Public(u: User): PublicUser {
    PublicUser(u.id, u.name, u.email)
  }

  /** A signed token with the user it was issued for. */
  datatype Session = Session(accessToken: string, user: PublicUser)

  /** `jwtService.signAsync({ sub: id, email })`. */
  type Signer = (string, string) -> string

  /** `bcrypt.compare(password, stored)`. */
  type PasswordCheck = (string, Option<string>) -> bool

  /** The identity in a verified Google token. */
  datatype GoogleIdentity = GoogleIdentity(email: Option<string>, name: Option<string>, picture: Option<string>)

  /** Verifying an ID token: no identity when the token is rejected or carries no payload. */
  type GoogleVerifier = string -> Option<GoogleIdentity>

  /** A Google session also returns the picture from the token. */
  datatype GoogleSession = GoogleSession(accessToken: string, user: PublicUser, picture: Option<string>)

  const Verified := "OTP verified successfully. You can now log in."
  const Resent := "New OTP has been sent to your email."
  const GoogleFailed := "Google login failed"

  // ---------------------------------------------------------------- register

  /**
   * Register a local account. `hashed` is the bcrypt hash of the password,
   * `otp` the generated code, `id` the new document's id and `now` the clock.
   */
  function Register(store: Store, name: string, email: string, hashed: string, otp: string, id: string, now: int)
    : (r: Outcome<PublicUser>)
    ensures Key(email) in store ==> r == Outcome(store, Failure(Conflict("Email already registered")))
    ensures r.result.Failure? ==> r.store == store
    ensures r.result.Success? <==> Key(email) !in store && name != "" && email != ""
    ensures r.result.Success? ==>
      && r.store == store[Key(email) := User(id, name, Key(email), Some(hashed), Some(otp), false, "local", None, Some(now + OtpLifetime))]
      && r.result.value == PublicUser(id, name, Key(email))
  {
    if Key(email) in store then Outcome(store, Failure(Conflict("Email already registered")))
    else
      var input := UserInput(Some(name), Some(email), Some(hashed), Some(otp), Some(false), Some("local"), None, Some(now + OtpLifetime));
      match Create(input, id)
      case Failure(e) => Outcome(store, Failure(Invalid(e)))
      case Success(u) => Outcome(store[u.email := u], Success(Public(u)))
  }

  // ---------------------------------------------------------------- verify

  /** Check the code sent to `email` and mark the account verified. */
  function VerifyOtp(store: Store, email: string, otp: string, now: int): (r: Outcome<string>)
    ensures r.result.Failure? ==> r.store == store
    ensures Key(email) !in store ==> r.result == Failure(Unauthorized("Invalid email"))
    ensures Key(email) in store && store[Key(email)].otpVerified ==> r.result == Failure(BadRequest("OTP already verified"))
    ensures Key(email) in store && !store[Key(email)].otpVerified && store[Key(email)].otp != Some(otp) ==>
      r.result == Failure(Unauthorized("Invalid OTP"))
    ensures
      && Key(email) in store && !store[Key(email)].otpVerified && store[Key(email)].otp == Some(otp)
      && (store[Key(email)].otpExpiresAt.None? || store[Key(email)].otpExpiresAt.value < now)
      ==> r.result == Failure(BadRequest("OTP expired. Please request a new one."))
    ensures r.result.Success? <==>
      && Key(email) in store && !store[Key(email)].otpVerified
      && store[Key(email)].otp == Some(otp)
      && store[Key(email)].otpExpiresAt.Some? && store[Key(email)].otpExpiresAt.value >= now
    ensures r.result.Success? ==>
      && r.result.value == Verified
      && r.store == store[Key(email) := store[Key(email)].(otpVerified := true, otp := Some(""), otpExpiresAt := None)]
  {
    var k := Key(email);
    if k !in store then Outcome(store, Failure(Unauthorized("Invalid email")))
    else
      var u := store[k];
      if u.otpVerified then Outcome(store, Failure(BadRequest("OTP already verified")))
      else if u.otp != Some(otp) then Outcome(store, Failure(Unauthorized("Invalid OTP")))
      else if u.otpExpiresAt.None? || u.otpExpiresAt.value < now then
        Outcome(store, Failure(BadRequest("OTP expired. Please request a new one.")))
      else
        Outcome(store[k := u.(otpVerified := true, otp := Some(""), otpExpiresAt := None)], Success(Verified))
  }

  // ---------------------------------------------------------------- resend

  /** `Math.ceil(a / b)` for a positive divisor. */
  function CeilDiv(a: int, b: int): (q: int)
    requires b > 0
    ensures (q - 1) * b < a <= q * b
  {
    if a % b == 0 then a / b else a / b + 1
  }

  /** The seconds left on a code, rounded up, exceed the cooldown exactly when more than two minutes remain. */
  lemma CooldownInMilliseconds(remaining: int)
    ensures CeilDiv(remaining, 1000) > CooldownSeconds <==> remaining > CooldownSeconds * 1000
  {
    var q := CeilDiv(remaining, 1000);
    if q > CooldownSeconds {
      assert (q - 1) * 1000 >= CooldownSeconds * 1000;
    }
    if remaining > CooldownSeconds * 1000 {
      assert q * 1000 > CooldownSeconds * 1000;
    }
  }

  /** Whether an unexpired code still has too long to run for a new one to be sent. */
  predicate CoolingDown(u: User, now: int) {
    u.otpExpiresAt.Some? && u.otpExpiresAt.value > now
    && CeilDiv(u.otpExpiresAt.value - now, 1000) > CooldownSeconds
  }

  /** Send a new code to an unverified account. */
  function ResendOtp(store: Store, email: string, otp: string, now: int): (r: Outcome<string>)
    ensures r.result.Failure? ==> r.store == store
    ensures Key(email) !in store ==> r.result == Failure(Unauthorized("Invalid email"))
    ensures Key(email) in store && store[Key(email)].otpVerified ==> r.result == Failure(BadRequest("Email already verified."))
    ensures
      && Key(email) in store && !store[Key(email)].otpVerified
      && store[Key(email)].otpExpiresAt.Some? && store[Key(email)].otpExpiresAt.value - now > CooldownSeconds * 1000
      ==> r.result == Failure(BadRequest("Please wait before requesting a new OTP."))
    ensures r.result.Success? <==>
      && Key(email) in store && !store[Key(email)].otpVerified
      && !(store[Key(email)].otpExpiresAt.Some? && store[Key(email)].otpExpiresAt.value - now > CooldownSeconds * 1000)
    ensures r.result.Success? ==>
      && r.result.value == Resent
      && r.store == store[Key(email) := store[Key(email)].(otp := Some(otp), otpExpiresAt := Some(now + OtpLifetime))]
  {
    var k := Key(email);
    if k !in store then Outcome(store, Failure(Unauthorized("Invalid email")))
    else
      var u := store[k];
      if u.otpVerified then Outcome(store, Failure(BadRequest("Email already verified.")))
      else if CoolingDown(u, now) then
        CooldownInMilliseconds(u.otpExpiresAt.value - now);
        Outcome(store, Failure(BadRequest("Please wait before requesting a new OTP.")))
      else
        assert u.otpExpiresAt.Some? ==> !(u.otpExpiresAt.value - now > CooldownSeconds * 1000) by {
          if u.otpExpiresAt.Some? && u.otpExpiresAt.value > now {
            CooldownInMilliseconds(u.otpExpiresAt.value - now);
          }
        }
        Outcome(store[k := u.(otp := Some(otp), otpExpiresAt := Some(now + OtpLifetime))], Success(Resent))
  }

  // ---------------------------------------------------------------- login

  /** Password login: only verified accounts may sign in, and the check comes before the password. */
  function Login(store: Store, email: string, password: string, check: PasswordCheck, sign: Signer)
    : (r: Result<Session, AuthError>)
    ensures Key(email) !in store ==> r == Failure(Unauthorized("Invalid credentials"))
    ensures Key(email) in store && !store[Key(email)].otpVerified ==> r == Failure(Unauthorized("Please verify OTP first"))
    ensures r.Success? <==>
      Key(email) in store && store[Key(email)].otpVerified && check(password, store[Key(email)].password)
    ensures r.Failure? ==> r.error.Unauthorized?
    ensures r.Success? ==> var u := store[Key(email)];
      r.value == Session(sign(u.id, u.email), Public(u))
  {
    var k := Key(email);
    if k !in store then Failure(Unauthorized("Invalid credentials"))
    else
      var u := store[k];
      if !u.otpVerified then Failure(Unauthorized("Please verify OTP first"))
      else if !check(password, u.password) then Failure(Unauthorized("Invalid credentials"))
      else Success(Session(sign(u.id, u.email), Public(u)))
  }

  // ---------------------------------------------------------------- Google

  /** Sign in with a Google ID token, creating a verified account for a new email. */
  function GoogleLogin(store: Store, idToken: string, verify: GoogleVerifier, id: string, sign: Signer)
    : (r: Outcome<GoogleSession>)
    ensures r.result.Failure? ==> r.store == store && r.result.error == Unauthorized(GoogleFailed)
    ensures verify(idToken).None? ==> r.result.Failure?
    ensures r.result.Success? <==>
      && verify(idToken).Some? && Given(verify(idToken).value.email)
      && (Key(verify(idToken).value.email.value) in store || Given(verify(idToken).value.name))
    ensures r.result.Success? ==> verify(idToken).Some? && Given(verify(idToken).value.email)
    ensures r.result.Success? ==> var g := verify(idToken).value; var k := Key(g.email.value);
      && k in r.store
      && r.result.value == GoogleSession(sign(r.store[k].id, r.store[k].email), Public(r.store[k]), g.picture)
    ensures r.result.Success? && Key(verify(idToken).value.email.value) in store ==> r.store == store
    ensures r.result.Success? && Key(verify(idToken).value.email.value) !in store ==>
      var g := verify(idToken).value; var k := Key(g.email.value);
      Given(g.name) && r.store == store[k := User(id, g.name.value, k, Some(""), None, true, "google", g.picture, None)]
  {
    match verify(idToken)
    case None => Outcome(store, Failure(Unauthorized(GoogleFailed)))
    case Some(g) =>
      if !Given(g.email) then Outcome(store, Failure(Unauthorized(GoogleFailed)))
      else
        var k := Key(g.email.value);
        if k in store then
          var u := store[k];
          Outcome(store, Success(GoogleSession(sign(u.id, u.email), Public(u), g.picture)))
        else
          var input := UserInput(g.name, g.email, Some(""), None, Some(true), Some("google"), g.picture, None);
          match Create(input, id)
          case Failure(_) => Outcome(store, Failure(Unauthorized(GoogleFailed)))
          case Success(u) => Outcome(store[k := u], Success(GoogleSession(sign(u.id, u.email), Public(u), g.picture)))
  }

  // ---------------------------------------------------------------- properties

  /** Registration keeps the store well formed. */
  lemma RegisterPreserves(store: Store, name: string, email: string, hashed: string, otp: string, id: string, now: int)
    requires WellFormed(store)
    ensures WellFormed(Register(store, name, email, hashed, otp, id, now).store)
  {
  }

  /** Verifying a code keeps the store well formed. */
  lemma VerifyOtpPreserves(store: Store, email: string, otp: string, now: int)
    requires WellFormed(store)
    ensures WellFormed(VerifyOtp(store, email, otp, now).store)
  {
  }

  /** Re-sending a code keeps the store well formed. */
  lemma ResendOtpPreserves(store: Store, email: string, otp: string, now: int)
    requires WellFormed(store)
    ensures WellFormed(ResendOtp(store, email, otp, now).store)
  {
  }

  /** Google sign-in keeps the store well formed. */
  lemma GoogleLoginPreserves(store: Store, idToken: string, verify: GoogleVerifier, id: string, sign: Signer)
    requires WellFormed(store)
    ensures WellFormed(GoogleLogin(store, idToken, verify, id, sign).store)
  {
    var r := GoogleLogin(store, idToken, verify, id, sign);
    if r.result.Success? {
      var k := Key(verify(idToken).value.email.value);
      assert k != "";
    }
  }

  /** Emails differing only in letter case name the same account. */
  lemma RegisterIgnoresCase(store: Store, name: string, email: string, other: string, hashed: string, otp: string, id: string, now: int)
    requires Key(other) == Key(email)
    requires Register(store, name, email, hashed, otp, id, now).result.Success?
    ensures var s1 := Register(store, name, email, hashed, otp, id, now).store;
      Register(s1, name, other, hashed, otp, id, now).result == Failure(Conflict("Email already registered"))
  {
  }

  /** A code verifies once: a second attempt with the same code is refused and changes nothing. */
  lemma VerifyTwiceFails(store: Store, email: string, otp: string, now: int, later: int)
    requires VerifyOtp(store, email, otp, now).result.Success?
    ensures var s1 := VerifyOtp(store, email, otp, now).store;
      VerifyOtp(s1, email, otp, later) == Outcome(s1, Failure(BadRequest("OTP already verified")))
  {
  }

  /** The code sent at registration verifies up to and including five minutes later, and not after. */
  lemma CodeValidFiveMinutes(store: Store, name: string, email: string, hashed: string, otp: string, id: string, now: int, at: int)
    requires Register(store, name, email, hashed, otp, id, now).result.Success?
    ensures var s1 := Register(store, name, email, hashed, otp, id, now).store;
      VerifyOtp(s1, email, otp, at).result.Success? <==> at <= now + OtpLifetime
  {
  }

  /** A new account cannot log in before verifying, whatever the password. */
  lemma LoginNeedsVerification(store: Store, name: string, email: string, hashed: string, otp: string, id: string, now: int,
                               password: string, check: PasswordCheck, sign: Signer)
    requires Register(store, name, email, hashed, otp, id, now).result.Success?
    ensures var s1 := Register(store, name, email, hashed, otp, id, now).store;
      Login(s1, email, password, check, sign) == Failure(Unauthorized("Please verify OTP first"))
  {
  }

  /** Register, verify in time, then log in with the password that was hashed: a token for the new account. */
  lemma Lifecycle(store: Store, name: string, email: string, password: string, hashed: string, otp: string, id: string,
                  now: int, at: int, check: PasswordCheck, sign: Signer)
    requires check(password, Some(hashed))
    requires Key(email) !in store && name != "" && email != ""
    requires now <= at <= now + OtpLifetime
    ensures var s1 := Register(store, name, email, hashed, otp, id, now).store;
      var s2 := VerifyOtp(s1, email, otp, at).store;
      Login(s2, email, password, check, sign) == Success(Session(sign(id, Key(email)), PublicUser(id, name, Key(email))))
  {
  }

  /** After registering, a new code can be requested exactly once three minutes have passed. */
  lemma ResendWindow(store: Store, name: string, email: string, hashed: string, otp: string, id: string, now: int,
                     newCode: string, at: int)
    requires Register(store, name, email, hashed, otp, id, now).result.Success?
    ensures var s1 := Register(store, name, email, hashed, otp, id, now).store;
      ResendOtp(s1, email, newCode, at).result.Success? <==> at >= now + OtpLifetime - CooldownSeconds * 1000
  {
  }

  /** A re-sent code replaces the old one: the old code no longer verifies. */
  lemma ResendReplacesCode(store: Store, email: string, previous: string, newCode: string, now: int, at: int)
    requires previous != newCode
    requires ResendOtp(store, email, newCode, now).result.Success?
    ensures var s1 := ResendOtp(store, email, newCode, now).store;
      VerifyOtp(s1, email, previous, at).result == Failure(Unauthorized("Invalid OTP"))
  {
  }

  /** Google sign-in does not look at verification: an unverified account is signed in and stays unverified. */
  lemma GoogleSkipsVerification(store: Store, idToken: string, verify: GoogleVerifier, id: string, sign: Signer)
    requires verify(idToken).Some? && Given(verify(idToken).value.email)
    requires var k := Key(verify(idToken).value.email.value); k in store && !store[k].otpVerified
    ensures var r := GoogleLogin(store, idToken, verify, id, sign);
      r.result.Success? && r.store == store
  {
  }

  /** A new email with a name creates a verified `google` account with an empty password and signs it in. */
  lemma GoogleCreatesAccount(store: Store, idToken: string, verify: GoogleVerifier, id: string, sign: Signer)
    requires verify(idToken).Some? && Given(verify(idToken).value.email) && Given(verify(idToken).value.name)
    requires Key(verify(idToken).value.email.value) !in store
    ensures var r := GoogleLogin(store, idToken, verify, id, sign);
      var g, k := verify(idToken).value, Key(verify(idToken).value.email.value);
      && r.result.Success?
      && k in r.store && r.store.Keys == store.Keys + {k}
      && r.store[k].otpVerified && r.store[k].loginProvider == "google"
      && r.store[k].password == Some("") && r.store[k].name == g.name.value && r.store[k].id == id
      && r.result.value.user == Public(r.store[k])
  {
  }

  /** A new email without a name is refused and nothing is stored. */
  lemma GoogleNeedsName(store: Store, idToken: string, verify: GoogleVerifier, id: string, sign: Signer)
    requires verify(idToken).Some? && Given(verify(idToken).value.email) && !Given(verify(idToken).value.name)
    requires Key(verify(idToken).value.email.value) !in store
    ensures GoogleLogin(store, idToken, verify, id, sign) == Outcome(store, Failure(Unauthorized(GoogleFailed)))
  {
  }

  /** An account created by Google sign-in is verified, so password login reaches the password check. */
  lemma GoogleAccountVerified(store: Store, idToken: string, verify: GoogleVerifier, id: string, sign: Signer,
                              password: string, check: PasswordCheck)
    requires GoogleLogin(store, idToken, verify, id, sign).result.Success?
    requires Key(verify(idToken).value.email.value) !in store
    ensures var s1 := GoogleLogin(store, idToken, verify, id, sign).store;
      var email := verify(idToken).value.email.value;
      Login(s1, email, password, check, sign).Success? <==> check(password, Some(""))
  {
  }
}

=== FILE: chat_context.dfy ===
/**
 * The website context placed in the chat request: a text block rendered
 * from the scraping record found for the website, with `N/A` standing in
 * for every empty value. No record found means an empty context.
 */
module ChatContext {
  import opened Wrappers
  import opened JsString
  import opened ScrapedDataSchema

  /** `value || 'N/A'`. */
  function OrNA(s: string): (r: string)
    ensures r != ""
    ensures s != "" ==> r == s
    ensures s == "" ==> r == "N/A"
  {
    var r := FirstNonEmpty([s, "N/A"]);
    assert s != "" ==> r == s by {
      if s != "" {
        FirstNonEmptyHead([s, "N/A"]);
      }
    }
    assert s == "" ==> r == "N/A" by {
      if s == "" {
        FirstNonEmptySkip([s, "N/A"]);
        assert [s, "N/A"][1..] == ["N/A"];
        FirstNonEmptyHead(["N/A"]);
      }
    }
    r
  }

  /** `list?.join(', ')`: an absent list reads as the empty string. */
  function ListText(o: Option<seq<string>>): string {
    match o
    case None => ""
    case Some(xs) => Join(xs, ", ")
  }

  /** The links of one platform of a member, when the member has links at all. */
  function PlatformText(links: Option<MemberSocialLinks>, platform: MemberSocialLinks -> Option<seq<string>>): string {
    match links
    case None => ""
    case Some(l) => ListText(platform(l))
  }

  /** The heading line of the `i`-th member entry (counted from zero), numbered from one. */
  function EntryHeading(i: nat): string {
    "\n        --- Team Member " + FromNat(i + 1) + " ---"
  }

  /** The captions of a member entry's lines, each on its own indented line. */
  const NameCaption: string := "\n        Name: "
  const RoleCaption: string := "\n        Role: "
  const EmailCaption: string := "\n        Email: "
  const PhoneCaption: string := "\n        Phone: "
  const AddressCaption: string := "\n        Address: "
  const FacebookCaption: string := "\n          Facebook: "
  const InstagramCaption: string := "\n          Instagram: "
  const LinkedInCaption: string := "\n          LinkedIn: "

  /** The lines of a member entry below its heading, in the template's order. */
  function MemberLines(m: TeamMember): (r: seq<string>)
    ensures |r| == 9
  {
    [ NameCaption + OrNA(m.name.GetOr(""))
    , RoleCaption + OrNA(m.role.GetOr(""))
    , EmailCaption + OrNA(m.email.GetOr(""))
    , PhoneCaption + OrNA(m.phone.GetOr(""))
    , AddressCaption + OrNA(m.address.GetOr(""))
    , "\n        Social Links:"
    , FacebookCaption + OrNA(PlatformText(m.socialLinks, (l: MemberSocialLinks) => l.facebook))
    , InstagramCaption + OrNA(PlatformText(m.socialLinks, (l: MemberSocialLinks) => l.instagram))
    , LinkedInCaption + OrNA(PlatformText(m.socialLinks, (l: MemberSocialLinks) => l.linkedin))
    ]
  }

  /** The fields of a member entry, below its heading. */
  function MemberFields(m: TeamMember): string {
    Join(MemberLines(m), "") + "\n      "
  }

  /** The entry rendered for the `i`-th team member. */
  function MemberEntry(i: nat, m: TeamMember): (r: string)
    ensures StartsWith(r, EntryHeading(i))
  {
    PrefixOfAppend(EntryHeading(i), MemberFields(m));
    EntryHeading(i) + MemberFields(m)
  }

  lemma PrefixOfAppend(a: string, b: string)
    ensures StartsWith(a + b, a)
  {
    assert (a + b)[..|a|] == a;
  }

  /** Each line of a concatenation occurs in it; the position is returned. */
  lemma {:induction false} JoinOccurs(xs: seq<string>, k: nat) returns (j: nat)
    requires k < |xs|
    ensures OccursAt(Join(xs, ""), xs[k], j)
  {
    if |xs| == 1 {
      j := 0;
    } else {
      assert Join(xs, "") == xs[0] + Join(xs[1..], "");
      if k == 0 {
        j := 0;
      } else {
        var j' := JoinOccurs(xs[1..], k - 1);
        j := |xs[0]| + j';
        assert Join(xs, "")[j..j + |xs[k]|] == Join(xs[1..], "")[j'..j' + |xs[k]|];
      }
    }
  }

  /** Text around a string moves an occurrence in it by the length of the text before. */
  lemma OccursShift(a: string, s: string, b: string, p: string, j: nat)
    requires OccursAt(s, p, j)
    ensures OccursAt(a + s + b, p, |a| + j)
  {
    assert (a + s + b)[|a| + j..|a| + j + |p|] == s[j..j + |p|];
  }

  /** Every line of a member's fields appears in the member's entry. */
  lemma EntryHasLine(i: nat, m: TeamMember, k: nat)
    requires k < 9
    ensures Contains(MemberEntry(i, m), MemberLines(m)[k])
  {
    var lines := MemberLines(m);
    var j := JoinOccurs(lines, k);
    assert MemberEntry(i, m) == EntryHeading(i) + Join(lines, "") + "\n      ";
    OccursShift(EntryHeading(i), Join(lines, ""), "\n      ", lines[k], j);
    OccursContains(MemberEntry(i, m), lines[k], |EntryHeading(i)| + j);
  }

  /**
   * A member entry shows each field of the member: its value when the
   * member has a non-empty one, `N/A` when the field is missing or empty.
   */
  lemma MemberFieldsShown(i: nat, m: TeamMember)
    ensures m.name.GetOr("") != "" ==> Contains(MemberEntry(i, m), NameCaption + m.name.value)
    ensures m.name.GetOr("") == "" ==> Contains(MemberEntry(i, m), NameCaption + "N/A")
    ensures m.role.GetOr("") != "" ==> Contains(MemberEntry(i, m), RoleCaption + m.role.value)
    ensures m.role.GetOr("") == "" ==> Contains(MemberEntry(i, m), RoleCaption + "N/A")
    ensures m.email.GetOr("") != "" ==> Contains(MemberEntry(i, m), EmailCaption + m.email.value)
    ensures m.email.GetOr("") == "" ==> Contains(MemberEntry(i, m), EmailCaption + "N/A")
    ensures m.phone.GetOr("") != "" ==> Contains(MemberEntry(i, m), PhoneCaption + m.phone.value)
    ensures m.phone.GetOr("") == "" ==> Contains(MemberEntry(i, m), PhoneCaption + "N/A")
    ensures m.address.GetOr("") != "" ==> Contains(MemberEntry(i, m), AddressCaption + m.address.value)
    ensures m.address.GetOr("") == "" ==> Contains(MemberEntry(i, m), AddressCaption + "N/A")
  {
    var e := MemberEntry(i, m);
    EntryHasLine(i, m, 0);
    ShownLine(e, NameCaption, m.name.GetOr(""));
    EntryHasLine(i, m, 1);
    ShownLine(e, RoleCaption, m.role.GetOr(""));
    EntryHasLine(i, m, 2);
    ShownLine(e, EmailCaption, m.email.GetOr(""));
    EntryHasLine(i, m, 3);
    ShownLine(e, PhoneCaption, m.phone.GetOr(""));
    EntryHasLine(i, m, 4);
    ShownLine(e, AddressCaption, m.address.GetOr(""));
  }

  /** A line showing `raw || 'N/A'` shows the raw value, or `N/A` for the empty one. */
  lemma ShownLine(e: string, caption: string, raw: string)
    requires Contains(e, caption + OrNA(raw))
    ensures raw != "" ==> Contains(e, caption + raw)
    ensures raw == "" ==> Contains(e, caption + "N/A")
  {
  }

  /**
   * A member entry shows the member's links of each platform joined by a
   * comma and a space, and `N/A` for a platform without links, including
   * when the member has no links at all.
   */
  lemma MemberLinksShown(i: nat, m: TeamMember)
    ensures m.socialLinks.None? ==>
      && Contains(MemberEntry(i, m), FacebookCaption + "N/A")
      && Contains(MemberEntry(i, m), InstagramCaption + "N/A")
      && Contains(MemberEntry(i, m), LinkedInCaption + "N/A")
    ensures m.socialLinks.Some? && m.socialLinks.value.facebook.Some? && Join(m.socialLinks.value.facebook.value, ", ") != "" ==>
      Contains(MemberEntry(i, m), FacebookCaption + Join(m.socialLinks.value.facebook.value, ", "))
    ensures m.socialLinks.Some? && m.socialLinks.value.instagram.Some? && Join(m.socialLinks.value.instagram.value, ", ") != "" ==>
      Contains(MemberEntry(i, m), InstagramCaption + Join(m.socialLinks.value.instagram.value, ", "))
    ensures m.socialLinks.Some? && m.socialLinks.value.linkedin.Some? && Join(m.socialLinks.value.linkedin.value, ", ") != "" ==>
      Contains(MemberEntry(i, m), LinkedInCaption + Join(m.socialLinks.value.linkedin.value, ", "))
    ensures m.socialLinks.Some? && m.socialLinks.value.facebook.None? ==> Contains(MemberEntry(i, m), FacebookCaption + "N/A")
    ensures m.socialLinks.Some? && m.socialLinks.value.instagram.None? ==> Contains(MemberEntry(i, m), InstagramCaption + "N/A")
    ensures m.socialLinks.Some? && m.socialLinks.value.linkedin.None? ==> Contains(MemberEntry(i, m), LinkedInCaption + "N/A")
  {
    var e := MemberEntry(i, m);
    EntryHasLine(i, m, 6);
    ShownLine(e, FacebookCaption, PlatformText(m.socialLinks, (l: MemberSocialLinks) => l.facebook));
    EntryHasLine(i, m, 7);
    ShownLine(e, InstagramCaption, PlatformText(m.socialLinks, (l: MemberSocialLinks) => l.instagram));
    EntryHasLine(i, m, 8);
    ShownLine(e, LinkedInCaption, PlatformText(m.socialLinks, (l: MemberSocialLinks) => l.linkedin));
  }

  function MemberEntries(team: seq<TeamMember>): (r: seq<string>)
    ensures |r| == |team|
    ensures forall i :: 0 <= i < |team| ==> r[i] == MemberEntry(i, team[i])
  {
    seq(|team|, i requires 0 <= i < |team| => MemberEntry(i, team[i]))
  }

  /** The member entries joined by line feeds. */
  function TeamDetails(team: seq<TeamMember>): (r: string)
    ensures r == "" <==> team == []
  {
    var entries := MemberEntries(team);
    JoinEmpty(entries, "\n");
    assert |entries| == 1 ==> entries[0] != "" by {
      if |entries| == 1 {
        assert StartsWith(entries[0], EntryHeading(0));
        assert EntryHeading(0)[0] == '\n';
      }
    }
    Join(entries, "\n")
  }

  /** `pages.map(p => p.texts).join(', ')`: each page's texts as an array converts to its comma join. */
  function PagesText(pages: seq<PageTexts>): (r: string)
    ensures r == "" <==> |pages| == 0 || (|pages| == 1 && Join(pages[0].texts, ",") == "")
  {
    JoinEmpty(PageParts(pages), ", ");
    Join(PageParts(pages), ", ")
  }

  /** Each page's texts as an array converted to a string: joined by commas. */
  function PageParts(pages: seq<PageTexts>): (r: seq<string>)
    ensures |r| == |pages|
    ensures forall i :: 0 <= i < |pages| ==> r[i] == Join(pages[i].texts, ",")
  {
    seq(|pages|, i requires 0 <= i < |pages| => Join(pages[i].texts, ","))
  }

  /** The line break and indentation that open each context line. */
  const LineIndent: string := "\n        "

  /** The labels of the context lines, in order. */
  const Labels: seq<string> :=
    ["Name: ", "Email: ", "Phone: ", "Social Links: ", "About: ", "Headlines: ", "Slogan: ", "Team:", "Pages:"]

  /** The value of each context line before the `N/A` substitution. */
  function RawValues(d: ScrapedData): (r: seq<string>)
    ensures |r| == |Labels|
  {
    [d.name, d.email, d.phone, Join(d.socialLinks, ", "), d.about, Join(d.headlines, ", "), d.slogan,
     TeamDetails(d.team), PagesText(d.pages)]
  }

  /** The value shown on each context line: never empty, the raw value whenever there is one. */
  function Values(d: ScrapedData): (r: seq<string>)
    ensures |r| == |Labels|
    ensures forall i :: 0 <= i < |r| ==> r[i] != ""
    ensures forall i :: 0 <= i < |r| && RawValues(d)[i] != "" ==> r[i] == RawValues(d)[i]
    ensures forall i :: 0 <= i < |r| && RawValues(d)[i] == "" ==> r[i] == "N/A"
  {
    Shown(RawValues(d))
  }

  /** Each value with `N/A` in place of the empty string. */
  function Shown(raw: seq<string>): (r: seq<string>)
    ensures |r| == |raw|
    ensures forall i :: 0 <= i < |raw| ==> r[i] == OrNA(raw[i])
  {
    seq(|raw|, i requires 0 <= i < |raw| => OrNA(raw[i]))
  }

  /** The context lines: each label with its value, on its own indented line. */
  function ContextLines(d: ScrapedData): (r: seq<string>)
    ensures |r| == |Labels|
    ensures forall i :: 0 <= i < |r| ==> r[i] == LineIndent + Labels[i] + Values(d)[i]
  {
    seq(|Labels|, i requires 0 <= i < |Labels| => LineIndent + Labels[i] + Values(d)[i])
  }

  /** The context text of a record: its lines, then the closing indentation. */
  function Render(lines: seq<string>): (r: string)
    requires |lines| > 0
    ensures StartsWith(r, lines[0])
    ensures r == Join(lines, "") + "\n      "
  {
    assert |lines| == 1 ==> Join(lines[1..], "") == "";
    assert |lines| > 1 ==> Join(lines, "") == lines[0] + Join(lines[1..], "");
    PrefixOfAppend(lines[0], Join(lines[1..], "") + "\n      ");
    lines[0] + (Join(lines[1..], "") + "\n      ")
  }

  /** The context for the record found, or the empty string when none was found. */
  function Context(found: Option<ScrapedData>): (r: string)
    ensures r == "" <==> found.None?
    ensures found.Some? ==> StartsWith(r, ContextLines(found.value)[0])
    ensures found.Some? ==> r == Join(ContextLines(found.value), "") + "\n      "
  {
    match found
    case None => ""
    case Some(d) => Render(ContextLines(d))
  }

  /** The system prompt fixing the assistant's behaviour. */
  const SystemPrompt: string :=
    "\n    You are a concise assistant. Answer strictly based on the provided website data."
    + "\n    Keep your response short: 3–4 sentences maximum."
    + "\n    Do NOT add information outside of the provided context.\n  "

  /** A chat message sent to the completion endpoint. */
  datatype Message = Message(role: string, content: string)

  /** The messages of the completion request: the instructions, the context, then the visitor's message. */
  function RequestMessages(found: Option<ScrapedData>, message: string): (r: seq<Message>)
    ensures |r| == 3
    ensures r[2] == Message("user", message)
    ensures r[0].role == "system" && r[1].role == "system"
    ensures StartsWith(r[1].content, "Website Context:\n")
    ensures found.None? ==> r[1].content == "Website Context:\n"
    ensures r[0].content == SystemPrompt
    ensures r[1].content == "Website Context:\n" + Context(found)
  {
    var ctx := "Website Context:\n" + Context(found);
    assert ctx[..|"Website Context:\n"|] == "Website Context:\n";
    [Message("system", SystemPrompt), Message("system", ctx), Message("user", message)]
  }

  /**
   * With a record, the context shows every labelled line: the record's value
   * when it is non-empty, `N/A` when it is empty.
   */
  lemma ContextShowsLine(d: ScrapedData, k: nat)
    requires k < |Labels|
    ensures Contains(Context(Some(d)), LineIndent + Labels[k] + Values(d)[k])
    ensures RawValues(d)[k] != "" ==> Contains(Context(Some(d)), LineIndent + Labels[k] + RawValues(d)[k])
    ensures RawValues(d)[k] == "" ==> Contains(Context(Some(d)), LineIndent + Labels[k] + "N/A")
  {
    var lines := ContextLines(d);
    var j := JoinOccurs(lines, k);
    assert Context(Some(d)) == "" + Join(lines, "") + "\n      ";
    OccursShift("", Join(lines, ""), "\n      ", lines[k], j);
    OccursContains(Context(Some(d)), lines[k], j);
  }

  /** A record whose scalar fields are all empty shows `N/A` on its name, email, phone, about and slogan lines. */
  lemma EmptyRecordShowsNA(d: ScrapedData)
    requires d.name == "" && d.email == "" && d.phone == "" && d.about == "" && d.slogan == ""
    ensures Contains(Context(Some(d)), LineIndent + "Name: N/A")
    ensures Contains(Context(Some(d)), LineIndent + "Email: N/A")
    ensures Contains(Context(Some(d)), LineIndent + "Phone: N/A")
    ensures Contains(Context(Some(d)), LineIndent + "About: N/A")
    ensures Contains(Context(Some(d)), LineIndent + "Slogan: N/A")
  {
    assert RawValues(d)[0] == "" && RawValues(d)[1] == "" && RawValues(d)[2] == "";
    assert RawValues(d)[4] == "" && RawValues(d)[6] == "";
    assert Labels[0] + "N/A" == "Name: N/A" && Labels[1] + "N/A" == "Email: N/A" && Labels[2] + "N/A" == "Phone: N/A";
    assert Labels[4] + "N/A" == "About: N/A" && Labels[6] + "N/A" == "Slogan: N/A";
    LineShowsNA(d, 0, "Name: N/A");
    LineShowsNA(d, 1, "Email: N/A");
    LineShowsNA(d, 2, "Phone: N/A");
    LineShowsNA(d, 4, "About: N/A");
    LineShowsNA(d, 6, "Slogan: N/A");
  }

  lemma LineShowsNA(d: ScrapedData, k: nat, text: string)
    requires k < |Labels| && RawValues(d)[k] == "" && text == Labels[k] + "N/A"
    ensures Contains(Context(Some(d)), LineIndent + text)
  {
    ContextShowsLine(d, k);
    assert LineIndent + Labels[k] + "N/A" == LineIndent + text;
  }

  /** A record without team members shows `N/A` on the team line. */
  lemma EmptyTeamShowsNA(d: ScrapedData)
    requires d.team == []
    ensures ContextLines(d)[7] == "\n        Team:N/A"
  {
    assert RawValues(d)[7] == "";
  }

  /** A team with members shows their entries, the first one numbered 1. */
  lemma TeamShowsEntries(d: ScrapedData)
    requires d.team != []
    ensures Values(d)[7] == Join(MemberEntries(d.team), "\n")
    ensures StartsWith(Values(d)[7], "\n        --- Team Member 1 ---")
  {
    assert RawValues(d)[7] == TeamDetails(d.team) != "";
    FirstEntryLeads(d.team);
    FirstHeading();
  }

  /** The team details open with the first member's entry. */
  lemma FirstEntryLeads(team: seq<TeamMember>)
    requires team != []
    ensures StartsWith(TeamDetails(team), EntryHeading(0))
  {
    var entries := MemberEntries(team);
    if |entries| > 1 {
      StartsWithAppend(entries[0], "\n" + Join(entries[1..], "\n"), EntryHeading(0));
    }
  }

  lemma FirstHeading()
    ensures EntryHeading(0) == "\n        --- Team Member 1 ---"
  {
    assert FromNat(1) == "1";
  }

  /** The number in an entry's heading reads back as its position counted from one. */
  lemma EntryNumber(i: nat, m: TeamMember)
    ensures var n := FromNat(i + 1);
      var start := |"\n        --- Team Member "|;
      && start + |n| <= |MemberEntry(i, m)|
      && DecimalValue(MemberEntry(i, m)[start..start + |n|]) == i + 1
  {
    var n := FromNat(i + 1);
    var pre := "\n        --- Team Member ";
    var h := EntryHeading(i);
    var e := MemberEntry(i, m);
    assert e[..|h|] == h;
    assert h[|pre|..|pre| + |n|] == n;
    assert e[|pre|..|pre| + |n|] == h[|pre|..|pre| + |n|];
    FromNatValue(i + 1);
  }

  /** Pages whose texts are all empty show `N/A`; so does a single page with no text. */
  lemma PagesShowNA(d: ScrapedData, p: PageTexts)
    requires d.pages == [p] && p.texts == []
    ensures Values(d)[8] == "N/A"
  {
    assert Join(p.texts, ",") == "";
  }

  /** Two pages always show something, even without text: the separator remains. */
  lemma TwoPagesShowSeparator(d: ScrapedData, p: PageTexts, q: PageTexts)
    requires d.pages == [p, q] && p.texts == [] && q.texts == []
    ensures Values(d)[8] == ", "
  {
    var parts := PageParts(d.pages);
    assert parts[0] == Join(p.texts, ",") == "";
    assert parts[1] == Join(q.texts, ",") == "";
    assert parts[1..] == [""];
    assert Join(parts, ", ") == "" + ", " + "";
  }
}

=== FILE: chat_stream.dfy ===
/**
 * The handler of the chat-completion stream: each received chunk is appended
 * to a line buffer, the complete lines are interpreted as `data: ` events,
 * and the incomplete tail is kept for the next chunk.
 *
 * `JSON.parse` (with the read of `choices[0].delta`) and `JSON.stringify` are
 * oracle parameters; writing a frame, ending the response and saving the chat
 * record are returned as effects.
 */
module ChatStream {
  import opened Wrappers
  import opened JsString

  // ---------------------------------------------------------------- line buffer

  /** `s` holds no line feed. */
  predicate NoNewline(s: string) {
    forall i :: 0 <= i < |s| ==> s[i] != '\n'
  }

  /** Every line followed by its line feed: the inverse of splitting off complete lines. */
  function ConcatLines(lines: seq<string>): string {
    if |lines| == 0 then "" else lines[0] + "\n" + ConcatLines(lines[1..])
  }

  /** `buffer.split('\n')` then `lines.pop()`: the complete lines and the unterminated tail. */
  function SplitLines(text: string): (r: (seq<string>, string))
    ensures forall k :: 0 <= k < |r.0| ==> NoNewline(r.0[k])
    ensures NoNewline(r.1)
    ensures text == ConcatLines(r.0) + r.1
  {
    var parts := Split(text, '\n');
    JoinAsLines(parts);
    (parts[..|parts| - 1], parts[|parts| - 1])
  }

  /** Joining parts with line feeds is the same as terminating all but the last. */
  lemma {:induction false} JoinAsLines(parts: seq<string>)
    requires |parts| >= 1
    ensures Join(parts, "\n") == ConcatLines(parts[..|parts| - 1]) + parts[|parts| - 1]
  {
    if |parts| > 1 {
      JoinAsLines(parts[1..]);
      assert parts[1..][..|parts[1..]| - 1] == parts[..|parts| - 1][1..];
    }
  }

  lemma {:induction false} ConcatLinesAppend(a: seq<string>, b: seq<string>)
    ensures ConcatLines(a + b) == ConcatLines(a) + ConcatLines(b)
  {
    if |a| > 0 {
      ConcatLinesAppend(a[1..], b);
      assert (a + b)[0] == a[0] && (a + b)[1..] == a[1..] + b;
    } else {
      assert a + b == b;
    }
  }

  /** The characters of a line followed by its line feed. */
  lemma LineChars(l: string, rest: string, i: int)
    ensures 0 <= i < |l| ==> (l + "\n" + rest)[i] == l[i]
    ensures (l + "\n" + rest)[|l|] == '\n'
  {
  }

  /** Two lines split off the front of the same text are the same line. */
  lemma FirstLineUnique(p: string, q: string, r1: string, r2: string)
    requires NoNewline(p) && NoNewline(q)
    requires p + "\n" + r1 == q + "\n" + r2
    ensures p == q && r1 == r2
  {
    var x := p + "\n" + r1;
    if |q| < |p| {
      LineChars(p, r1, |q|);
      LineChars(q, r2, 0);
      assert false;
    } else if |p| < |q| {
      LineChars(q, r2, |p|);
      LineChars(p, r1, 0);
      assert false;
    }
    assert p == x[..|p|] == q;
    assert r1 == x[|p| + 1..] == r2;
  }

  /** A text that begins with a complete line holds a line feed. */
  lemma ConcatLinesHasNewline(b: seq<string>, u: string)
    requires |b| > 0
    ensures !NoNewline(ConcatLines(b) + u)
  {
    var x := ConcatLines(b) + u;
    assert x == b[0] + "\n" + (ConcatLines(b[1..]) + u);
    assert x[|b[0]|] == '\n';
  }

  /** Complete lines and a tail without line feeds are determined by their concatenation. */
  lemma {:induction false} LinesUnique(a: seq<string>, t: string, b: seq<string>, u: string)
    requires forall k :: 0 <= k < |a| ==> NoNewline(a[k])
    requires forall k :: 0 <= k < |b| ==> NoNewline(b[k])
    requires NoNewline(t) && NoNewline(u)
    requires ConcatLines(a) + t == ConcatLines(b) + u
    ensures a == b && t == u
  {
    if |a| == 0 && |b| == 0 {
      assert ConcatLines(a) == "" && ConcatLines(b) == "";
      assert "" + t == t && "" + u == u;
    } else if |a| == 0 {
      assert ConcatLines(a) + t == t;
      ConcatLinesHasNewline(b, u);
      assert false;
    } else if |b| == 0 {
      assert ConcatLines(b) + u == u;
      ConcatLinesHasNewline(a, t);
      assert false;
    } else {
      var ra, rb := ConcatLines(a[1..]) + t, ConcatLines(b[1..]) + u;
      assert ConcatLines(a) + t == a[0] + "\n" + ra;
      assert ConcatLines(b) + u == b[0] + "\n" + rb;
      FirstLineUnique(a[0], b[0], ra, rb);
      LinesUnique(a[1..], t, b[1..], u);
      assert a == [a[0]] + a[1..];
      assert b == [b[0]] + b[1..];
    }
  }

  /** Splitting a longer text continues where splitting a prefix left its tail. */
  lemma SplitLinesExtend(text: string, more: string)
    ensures var first := SplitLines(text);
      var second := SplitLines(first.1 + more);
      SplitLines(text + more) == (first.0 + second.0, second.1)
  {
    var first := SplitLines(text);
    var second := SplitLines(first.1 + more);
    var whole := SplitLines(text + more);
    Regroup(text, more, ConcatLines(first.0), first.1, ConcatLines(second.0), second.1);
    LinesCompose(first.0, second.0, second.1, whole.0, whole.1, text + more);
  }

  /** `x = c1 + b1` and `b1 + y = c2 + b2` give `x + y = c1 + (c2 + b2)`. */
  lemma Regroup(x: string, y: string, c1: string, b1: string, c2: string, b2: string)
    requires x == c1 + b1 && b1 + y == c2 + b2
    ensures x + y == c1 + (c2 + b2)
  {
    assert x + y == c1 + (b1 + y);
  }

  /** Lines split off after other lines continue the same sequence of lines. */
  lemma LinesCompose(l1: seq<string>, l2: seq<string>, b2: string, l: seq<string>, b: string, whole: string)
    requires forall k :: 0 <= k < |l1| ==> NoNewline(l1[k])
    requires forall k :: 0 <= k < |l2| ==> NoNewline(l2[k])
    requires forall k :: 0 <= k < |l| ==> NoNewline(l[k])
    requires NoNewline(b2) && NoNewline(b)
    requires whole == ConcatLines(l1) + (ConcatLines(l2) + b2)
    requires whole == ConcatLines(l) + b
    ensures l == l1 + l2 && b == b2
  {
    ConcatLinesAppend(l1, l2);
    AppendAssoc(ConcatLines(l1), ConcatLines(l2), b2);
    AllNoNewline(l1, l2);
    LinesUnique(l, b, l1 + l2, b2);
  }

  // ---------------------------------------------------------------- events

  /** The part of a parsed event the handler reads: `choices[0].delta.role` and `.content`. */
  datatype Delta = Delta(role: Option<string>, content: Option<string>)

  /** `JSON.parse` of a payload followed by the read of `choices[0]`; `None` when either throws. */
  type DeltaParser = string -> Option<Delta>

  /** One frame sent to the client. */
  datatype Frame = Frame(content: string, role: string)

  /** The chat record saved when the stream is done. */
  datatype Chat = Chat(websiteId: string, userMessage: string, aiResponse: string, role: string)

  /** What the handler does to the outside world. */
  datatype Effect =
    | Write(frame: Frame)   // `res.write`
    | SaveChat(chat: Chat)  // `chatModel.create`
    | End                   // `res.end()`

  /** The request a stream answers. */
  datatype Session = Session(websiteId: string, message: string)

  const DoneMarker: string := "data: [DONE]"
  const DataPrefix: string := "data: "

  /** `line.replace(/^data:\s*\/, '').trim()` for a line that starts with `data: `. */
  function Payload(line: string): (r: string)
    requires StartsWith(line, DataPrefix)
    ensures r == Trim(line[|DataPrefix|..])
  {
    var rest := line[|"data:"|..];
    assert rest == [' '] + line[|DataPrefix|..];
    TrimSkipsLeadingSpace(line[|DataPrefix|..]);
    Trim(TrimStart(rest))
  }

  /** Dropping leading whitespace first does not change the trim. */
  lemma TrimSkipsLeadingSpace(s: string)
    ensures Trim(TrimStart([' '] + s)) == Trim(s)
  {
    TrimLeadingSpace(s);
    TrimStartIdempotent(s);
    TrimIsBothEnds(s);
    TrimIsBothEnds(TrimStart(s));
    TrimIsBothEnds([' '] + s);
  }

  /** A leading space does not change the trim. */
  lemma TrimLeadingSpace(s: string)
    ensures Trim([' '] + s) == Trim(s)
  {
    assert ([' '] + s)[1..] == s;
    assert TrimStart([' '] + s) == TrimStart(s);
    TrimIsBothEnds(s);
    TrimIsBothEnds([' '] + s);
  }

  lemma TrimStartIdempotent(s: string)
    ensures TrimStart(TrimStart(s)) == TrimStart(s)
  {
  }

  /** `delta?.role || 'assistant'`. */
  function RoleOf(d: Delta): (r: string)
    ensures r != ""
    ensures d.role.Some? && d.role.value != "" ==> r == d.role.value
    ensures d.role.GetOr("") == "" ==> r == "assistant"
  {
    var cands := [d.role.GetOr(""), "assistant"];
    assert cands[1] != "";
    FirstNonEmpty(cands)
  }

  /** The line is the end-of-stream marker once trimmed. */
  predicate IsDone(line: string) {
    Trim(line) == DoneMarker
  }

  /** How the loop body treats one complete line. */
  datatype LineKind = Blank | Done | Event(payload: string) | Other

  /**
   * The tests of the loop body, in order: `!line.trim()`, then the trimmed
   * done marker, then `startsWith('data: ')` on the raw line.
   */
  function Classify(line: string): (k: LineKind)
    ensures k.Blank? <==> IsBlank(line)
    ensures k.Done? <==> IsDone(line)
    ensures k.Event? <==> !IsBlank(line) && !IsDone(line) && StartsWith(line, DataPrefix)
    ensures k.Event? ==> k.payload == Trim(line[|DataPrefix|..])
  {
    if Trim(line) == "" then Blank
    else if Trim(line) == DoneMarker then Done
    else if StartsWith(line, DataPrefix) then Event(Payload(line))
    else Other
  }

  /** The kind of every line, in order. */
  function ClassifyAll(lines: seq<string>): (ks: seq<LineKind>)
    ensures |ks| == |lines|
    ensures forall i :: 0 <= i < |lines| ==> ks[i] == Classify(lines[i])
  {
    seq(|lines|, i requires 0 <= i < |lines| => Classify(lines[i]))
  }

  lemma ClassifyAllAppend(l1: seq<string>, l2: seq<string>)
    ensures ClassifyAll(l1 + l2) == ClassifyAll(l1) + ClassifyAll(l2)
  {
    var k1, k2 := ClassifyAll(l1), ClassifyAll(l2);
    forall i | 0 <= i < |l1 + l2|
      ensures ClassifyAll(l1 + l2)[i] == (k1 + k2)[i]
    {
      if i < |l1| {
        assert (l1 + l2)[i] == l1[i];
      } else {
        assert (l1 + l2)[i] == l2[i - |l1|];
      }
    }
  }

  /** The frame a line writes: only an event whose parsed delta has non-empty content writes one. */
  function Emitted(parse: DeltaParser, k: LineKind): (w: seq<Frame>)
    ensures |w| <= 1
    ensures w != [] <==> k.Event? && parse(k.payload).Some? && parse(k.payload).value.content.GetOr("") != ""
    ensures w != [] ==> w[0] == Frame(parse(k.payload).value.content.value, RoleOf(parse(k.payload).value))
  {
    if k.Event? then
      match parse(k.payload)
      case Some(d) => if d.content.GetOr("") != "" then [Frame(d.content.value, RoleOf(d))] else []
      case None => []
    else []
  }

  /** The frames written for a chunk's lines, and whether a done line cut the chunk short. */
  datatype LinesResult = LinesResult(frames: seq<Frame>, stopped: bool)

  /**
   * The loop over a chunk's classified lines: the frames are written in line
   * order, and a done line skips the rest of the chunk.
   */
  function Interpret(parse: DeltaParser, kinds: seq<LineKind>): (r: LinesResult)
    ensures |r.frames| <= |kinds|
    ensures r.stopped <==> exists i :: 0 <= i < |kinds| && kinds[i].Done?
    ensures forall f :: f in r.frames ==> f.content != "" && f.role != ""
  {
    if |kinds| == 0 then LinesResult([], false)
    else if kinds[0].Done? then LinesResult([], true)
    else
      var tail := Interpret(parse, kinds[1..]);
      assert tail.stopped <==> exists i :: 0 <= i < |kinds| && kinds[i].Done? by {
        if tail.stopped {
          var i :| 0 <= i < |kinds[1..]| && kinds[1..][i].Done?;
          assert kinds[i + 1].Done?;
        }
        if exists i :: 0 <= i < |kinds| && kinds[i].Done? {
          var i :| 0 <= i < |kinds| && kinds[i].Done?;
          assert kinds[1..][i - 1].Done?;
        }
      }
      LinesResult(Emitted(parse, kinds[0]) + tail.frames, tail.stopped)
  }

  /** Before any done line, the lines are interpreted one after another. */
  lemma {:induction false} InterpretAppend(parse: DeltaParser, a: seq<LineKind>, b: seq<LineKind>)
    requires forall i :: 0 <= i < |a| ==> !a[i].Done?
    ensures Interpret(parse, a + b)
      == LinesResult(Interpret(parse, a).frames + Interpret(parse, b).frames, Interpret(parse, b).stopped)
  {
    if |a| == 0 {
      assert a + b == b;
    } else {
      assert (a + b)[0] == a[0] && (a + b)[1..] == a[1..] + b;
      InterpretAppend(parse, a[1..], b);
      var w := Emitted(parse, a[0]);
      var fa, fb := Interpret(parse, a[1..]).frames, Interpret(parse, b).frames;
      assert w + (fa + fb) == (w + fa) + fb;
    }
  }

  /** The concatenated content of some frames. */
  function Contents(frames: seq<Frame>): string {
    if |frames| == 0 then "" else frames[0].content + Contents(frames[1..])
  }

  lemma {:induction false} ContentsAppend(a: seq<Frame>, b: seq<Frame>)
    ensures Contents(a + b) == Contents(a) + Contents(b)
  {
    if |a| == 0 {
      assert a + b == b;
    } else {
      assert (a + b)[0] == a[0] && (a + b)[1..] == a[1..] + b;
      ContentsAppend(a[1..], b);
    }
  }

  /** The content of every `Write` effect, in order: what the handler writes. */
  function Written(effects: seq<Effect>): string {
    if |effects| == 0 then ""
    else (if effects[0].Write? then effects[0].frame.content else "") + Written(effects[1..])
  }

  lemma {:induction false} WrittenAppend(a: seq<Effect>, b: seq<Effect>)
    ensures Written(a + b) == Written(a) + Written(b)
  {
    if |a| == 0 {
      assert a + b == b;
    } else {
      assert (a + b)[0] == a[0] && (a + b)[1..] == a[1..] + b;
      WrittenAppend(a[1..], b);
    }
  }

  /** One `Write` effect per frame, in order. */
  function Writes(frames: seq<Frame>): (es: seq<Effect>)
    ensures |es| == |frames|
    ensures forall i :: 0 <= i < |frames| ==> es[i] == Write(frames[i])
  {
    seq(|frames|, i requires 0 <= i < |frames| => Write(frames[i]))
  }

  lemma WritesAppend(a: seq<Frame>, b: seq<Frame>)
    ensures Writes(a + b) == Writes(a) + Writes(b)
  {
  }

  lemma {:induction false} WrittenWrites(frames: seq<Frame>)
    ensures Written(Writes(frames)) == Contents(frames)
  {
    if |frames| > 0 {
      WrittenWrites(frames[1..]);
      assert Writes(frames)[1..] == Writes(frames[1..]);
    }
  }

  /** The effects of a chunk's lines on top of the response accumulated so far. */
  function LineEffects(s: Session, full: string, r: LinesResult): (es: seq<Effect>)
    ensures |es| == |r.frames| + (if r.stopped then 2 else 0)
    ensures es[..|r.frames|] == Writes(r.frames)
    ensures Written(es) == Contents(r.frames)
    ensures End in es <==> r.stopped
    ensures forall e :: e in es && e.SaveChat? ==>
      e.chat == Chat(s.websiteId, s.message, full + Contents(r.frames), "assistant")
    ensures r.stopped ==>
      es[|r.frames|..] == [SaveChat(Chat(s.websiteId, s.message, full + Contents(r.frames), "assistant")), End]
    ensures (exists e :: e in es && e.SaveChat?) <==> r.stopped
  {
    var done := if r.stopped then [SaveChat(Chat(s.websiteId, s.message, full + Contents(r.frames), "assistant")), End] else [];
    WrittenWrites(r.frames);
    WrittenAppend(Writes(r.frames), done);
    assert forall e :: e in Writes(r.frames) ==> e.Write?;
    assert Written(done) == "" by {
      if r.stopped {
        assert done[1..] == [End] && [End][1..] == [];
      }
    }
    Writes(r.frames) + done
  }

  // ---------------------------------------------------------------- chunks

  /** `buffer`, `fullResponse`, and whether the response has been ended. */
  datatype StreamState = StreamState(buffer: string, fullResponse: string, ended: bool)

  const Initial: StreamState := StreamState("", "", false)

  datatype ChunkResult = ChunkResult(state: StreamState, effects: seq<Effect>)

  /** The `'data'` handler for one decoded chunk. */
  function OnData(s: Session, parse: DeltaParser, st: StreamState, chunk: string): (r: ChunkResult)
    ensures NoNewline(r.state.buffer)
    ensures st.buffer + chunk == ConcatLines(SplitLines(st.buffer + chunk).0) + r.state.buffer
    ensures r.state.fullResponse == st.fullResponse + Written(r.effects)
    ensures r.state.ended <==> st.ended || End in r.effects
    ensures End in r.effects <==> exists k :: 0 <= k < |SplitLines(st.buffer + chunk).0| && IsDone(SplitLines(st.buffer + chunk).0[k])
    ensures forall e :: e in r.effects && e.SaveChat? ==>
      e.chat == Chat(s.websiteId, s.message, r.state.fullResponse, "assistant")
    ensures (exists e :: e in r.effects && e.SaveChat?) <==> End in r.effects
  {
    var (lines, tail) := SplitLines(st.buffer + chunk);
    var kinds := ClassifyAll(lines);
    var res := Interpret(parse, kinds);
    assert res.stopped <==> exists k :: 0 <= k < |lines| && IsDone(lines[k]) by {
      if res.stopped {
        var i :| 0 <= i < |kinds| && kinds[i].Done?;
        assert IsDone(lines[i]);
      }
    }
    var full := st.fullResponse + Contents(res.frames);
    ChunkResult(StreamState(tail, full, st.ended || res.stopped), LineEffects(s, st.fullResponse, res))
  }

  /** Several chunks in arrival order; a done line stops only the rest of its own chunk. */
  function Feed(s: Session, parse: DeltaParser, st: StreamState, chunks: seq<string>): (r: ChunkResult)
    ensures r.state.fullResponse == st.fullResponse + Written(r.effects)
    ensures r.state.ended <==> st.ended || End in r.effects
    ensures |chunks| > 0 ==> NoNewline(r.state.buffer)
    decreases |chunks|
  {
    if |chunks| == 0 then
      assert st.fullResponse + "" == st.fullResponse;
      ChunkResult(st, [])
    else
      var first := OnData(s, parse, st, chunks[0]);
      var rest := Feed(s, parse, first.state, chunks[1..]);
      WrittenAppend(first.effects, rest.effects);
      AppendAssoc(st.fullResponse, Written(first.effects), Written(rest.effects));
      ChunkResult(rest.state, first.effects + rest.effects)
  }

  lemma AppendAssoc(a: string, b: string, c: string)
    ensures a + b + c == a + (b + c)
  {
  }

  // ---------------------------------------------------------------- properties

  /** The retained buffer is exactly the text after the last line feed of the old buffer and the chunk. */
  lemma BufferIsLastLine(s: Session, parse: DeltaParser, st: StreamState, chunk: string)
    ensures var b, text := OnData(s, parse, st, chunk).state.buffer, st.buffer + chunk;
      NoNewline(b) && EndsWith(text, b) && (|b| < |text| ==> text[|text| - |b| - 1] == '\n')
  {
    var text := st.buffer + chunk;
    var (lines, b) := SplitLines(text);
    var c := ConcatLines(lines);
    assert text == c + b;
    assert text[|text| - |b|..] == b;
    if |b| < |text| {
      ConcatLinesEndsInNewline(lines);
      assert text[|text| - |b| - 1] == c[|c| - 1];
    }
  }

  lemma {:induction false} ConcatLinesEndsInNewline(lines: seq<string>)
    requires |lines| > 0
    ensures |ConcatLines(lines)| > 0 && ConcatLines(lines)[|ConcatLines(lines)| - 1] == '\n'
  {
    if |lines| > 1 {
      ConcatLinesEndsInNewline(lines[1..]);
    } else {
      assert ConcatLines(lines) == lines[0] + "\n" + ConcatLines([]);
    }
  }

  /** Interpreting a line in front of others. */
  lemma InterpretCons(parse: DeltaParser, line: string, lines: seq<string>)
    ensures var k, rest := Classify(line), Interpret(parse, ClassifyAll(lines));
      Interpret(parse, ClassifyAll([line] + lines))
        == if k.Done? then LinesResult([], true) else LinesResult(Emitted(parse, k) + rest.frames, rest.stopped)
  {
    assert ClassifyAll([line] + lines)[1..] == ClassifyAll(lines);
  }

  /** A whitespace-only line writes nothing and does not stop the chunk. */
  lemma BlankLineIgnored(parse: DeltaParser, line: string, lines: seq<string>)
    requires IsBlank(line)
    ensures Interpret(parse, ClassifyAll([line] + lines)) == Interpret(parse, ClassifyAll(lines))
  {
    InterpretCons(parse, line, lines);
  }

  /** A done line writes nothing more and skips the lines after it. */
  lemma DoneLineStops(parse: DeltaParser, line: string, lines: seq<string>)
    requires IsDone(line)
    ensures Interpret(parse, ClassifyAll([line] + lines)) == LinesResult([], true)
  {
    InterpretCons(parse, line, lines);
  }

  /** A data line whose delta carries content writes one frame with that content. */
  lemma ContentLineWrites(parse: DeltaParser, line: string, lines: seq<string>)
    requires StartsWith(line, DataPrefix) && !IsDone(line)
    requires parse(Trim(line[|DataPrefix|..])).Some?
    requires parse(Trim(line[|DataPrefix|..])).value.content.GetOr("") != ""
    ensures var d := parse(Trim(line[|DataPrefix|..])).value;
      var rest := Interpret(parse, ClassifyAll(lines));
      Interpret(parse, ClassifyAll([line] + lines))
        == LinesResult([Frame(d.content.value, RoleOf(d))] + rest.frames, rest.stopped)
  {
    InterpretCons(parse, line, lines);
    DataLineNotBlank(line);
  }

  lemma DataLineNotBlank(line: string)
    requires StartsWith(line, DataPrefix)
    ensures !IsBlank(line)
  {
    assert line[0] == line[..|DataPrefix|][0] == 'd';
  }

  /** A data line that does not parse, or whose delta has no content, writes nothing. */
  lemma UnusableDataLineIgnored(parse: DeltaParser, line: string, lines: seq<string>)
    requires StartsWith(line, DataPrefix) && !IsDone(line)
    requires parse(Trim(line[|DataPrefix|..])).None? || parse(Trim(line[|DataPrefix|..])).value.content.GetOr("") == ""
    ensures Interpret(parse, ClassifyAll([line] + lines)) == Interpret(parse, ClassifyAll(lines))
  {
    InterpretCons(parse, line, lines);
  }

  /** A line that is neither done nor a raw `data: ` line writes nothing. */
  lemma OtherLineIgnored(parse: DeltaParser, line: string, lines: seq<string>)
    requires !IsDone(line) && !StartsWith(line, DataPrefix)
    ensures Interpret(parse, ClassifyAll([line] + lines)) == Interpret(parse, ClassifyAll(lines))
  {
    InterpretCons(parse, line, lines);
  }

  /** A `data: ` line indented by a space is not an event: the prefix test reads the raw line. */
  lemma IndentedDataLineIgnored(parse: DeltaParser, line: string, lines: seq<string>)
    requires StartsWith(line, DataPrefix) && !IsDone(line)
    ensures Interpret(parse, ClassifyAll([" " + line] + lines)) == Interpret(parse, ClassifyAll(lines))
  {
    var l := " " + line;
    assert !StartsWith(l, DataPrefix) by {
      assert l[0] == ' ';
    }
    assert !IsDone(l) by {
      assert l == [' '] + line;
      TrimLeadingSpace(line);
    }
    OtherLineIgnored(parse, l, lines);
  }

  /** `Join` with no separator of one more chunk. */
  lemma JoinCons(chunks: seq<string>)
    requires |chunks| > 0
    ensures Join(chunks, "") == chunks[0] + Join(chunks[1..], "")
  {
    if |chunks| == 1 {
      assert Join(chunks[1..], "") == "";
    }
  }

  /** A chunk without a done line writes the frames of its complete lines and keeps its tail. */
  lemma OnDataWithoutDone(s: Session, parse: DeltaParser, st: StreamState, chunk: string)
    requires var lines := SplitLines(st.buffer + chunk).0;
      forall k :: 0 <= k < |lines| ==> !IsDone(lines[k])
    ensures var (lines, tail) := SplitLines(st.buffer + chunk);
      var frames := Interpret(parse, ClassifyAll(lines)).frames;
      OnData(s, parse, st, chunk)
        == ChunkResult(StreamState(tail, st.fullResponse + Contents(frames), st.ended), Writes(frames))
  {
    var (lines, tail) := SplitLines(st.buffer + chunk);
    var res := Interpret(parse, ClassifyAll(lines));
    assert !res.stopped;
    var es := LineEffects(s, st.fullResponse, res);
    assert es == es[..|res.frames|];
  }

  /** The complete lines the handler sees over several chunks, and the tail it keeps at the end. */
  function FeedLines(buffer: string, chunks: seq<string>): (r: (seq<string>, string))
    ensures forall k :: 0 <= k < |r.0| ==> NoNewline(r.0[k])
    ensures NoNewline(buffer) ==> NoNewline(r.1)
    ensures buffer + Join(chunks, "") == ConcatLines(r.0) + r.1
    decreases |chunks|
  {
    if |chunks| == 0 then
      assert buffer + Join(chunks, "") == ConcatLines([]) + buffer;
      ([], buffer)
    else
      var first := SplitLines(buffer + chunks[0]);
      var rest := FeedLines(first.1, chunks[1..]);
      JoinCons(chunks);
      assert buffer + Join(chunks, "") == (buffer + chunks[0]) + Join(chunks[1..], "");
      Regroup(buffer + chunks[0], Join(chunks[1..], ""), ConcatLines(first.0), first.1, ConcatLines(rest.0), rest.1);
      ConcatLinesAppend(first.0, rest.0);
      AllNoNewline(first.0, rest.0);
      (first.0 + rest.0, rest.1)
  }

  lemma AllNoNewline(a: seq<string>, b: seq<string>)
    requires forall k :: 0 <= k < |a| ==> NoNewline(a[k])
    requires forall k :: 0 <= k < |b| ==> NoNewline(b[k])
    ensures forall k :: 0 <= k < |a + b| ==> NoNewline((a + b)[k])
  {
    forall k | 0 <= k < |a + b|
      ensures NoNewline((a + b)[k])
    {
      if k < |a| {
        assert (a + b)[k] == a[k];
      } else {
        assert (a + b)[k] == b[k - |a|];
      }
    }
  }

  /** From a buffer without line feeds, the lines seen over the chunks are the lines of their concatenation. */
  lemma FeedLinesSplitWhole(buffer: string, chunks: seq<string>)
    requires NoNewline(buffer)
    ensures FeedLines(buffer, chunks) == SplitLines(buffer + Join(chunks, ""))
  {
    var f := FeedLines(buffer, chunks);
    var w := SplitLines(buffer + Join(chunks, ""));
    LinesUnique(f.0, f.1, w.0, w.1);
  }

  /** Without a done line, feeding chunks writes the frames of the lines seen, in order. */
  lemma {:induction false} FeedWithoutDone(s: Session, parse: DeltaParser, st: StreamState, chunks: seq<string>)
    requires var lines := FeedLines(st.buffer, chunks).0;
      forall k :: 0 <= k < |lines| ==> !IsDone(lines[k])
    ensures var r := Feed(s, parse, st, chunks);
      var seen := FeedLines(st.buffer, chunks);
      var frames := Interpret(parse, ClassifyAll(seen.0)).frames;
      r.effects == Writes(frames) && r.state == StreamState(seen.1, st.fullResponse + Contents(frames), st.ended)
    decreases |chunks|
  {
    if |chunks| == 0 {
      assert Writes([]) == [];
      assert st.fullResponse + "" == st.fullResponse;
    } else {
      var first := SplitLines(st.buffer + chunks[0]);
      var rest := FeedLines(first.1, chunks[1..]);
      var l1, l2 := first.0, rest.0;
      assert FeedLines(st.buffer, chunks) == (l1 + l2, rest.1);
      NoDoneSplit(l1, l2);
      FramesAppend(parse, l1, l2);
      var f1, f2 := Interpret(parse, ClassifyAll(l1)).frames, Interpret(parse, ClassifyAll(l2)).frames;
      OnDataWithoutDone(s, parse, st, chunks[0]);
      var next := OnData(s, parse, st, chunks[0]);
      assert next.state.buffer == first.1;
      FeedWithoutDone(s, parse, next.state, chunks[1..]);
      WritesAppend(f1, f2);
      ContentsAppend(f1, f2);
      AppendAssoc(st.fullResponse, Contents(f1), Contents(f2));
    }
  }

  /** Without a done line, the frames of two runs of lines are the frames of each run, in order. */
  lemma FramesAppend(parse: DeltaParser, l1: seq<string>, l2: seq<string>)
    requires forall k :: 0 <= k < |l1| ==> !IsDone(l1[k])
    ensures Interpret(parse, ClassifyAll(l1 + l2)).frames
      == Interpret(parse, ClassifyAll(l1)).frames + Interpret(parse, ClassifyAll(l2)).frames
  {
    var k1, k2 := ClassifyAll(l1), ClassifyAll(l2);
    ClassifyAllAppend(l1, l2);
    InterpretAppend(parse, k1, k2);
  }

  /**
   * Without a done line, chunk boundaries do not matter: feeding the chunks
   * one by one writes the frames of all complete lines of their
   * concatenation, in order, and keeps the same tail.
   */
  lemma ChunkingInvisible(s: Session, parse: DeltaParser, st: StreamState, chunks: seq<string>)
    requires NoNewline(st.buffer)
    requires var lines := SplitLines(st.buffer + Join(chunks, "")).0;
      forall k :: 0 <= k < |lines| ==> !IsDone(lines[k])
    ensures var r := Feed(s, parse, st, chunks);
      var whole := SplitLines(st.buffer + Join(chunks, ""));
      var frames := Interpret(parse, ClassifyAll(whole.0)).frames;
      r.effects == Writes(frames) && r.state == StreamState(whole.1, st.fullResponse + Contents(frames), st.ended)
  {
    FeedLinesSplitWhole(st.buffer, chunks);
    FeedWithoutDone(s, parse, st, chunks);
  }

  lemma NoDoneSplit(l1: seq<string>, l2: seq<string>)
    requires forall k :: 0 <= k < |l1 + l2| ==> !IsDone((l1 + l2)[k])
    ensures forall k :: 0 <= k < |l1| ==> !IsDone(l1[k])
    ensures forall k :: 0 <= k < |l2| ==> !IsDone(l2[k])
  {
    forall k | 0 <= k < |l1| ensures !IsDone(l1[k]) {
      assert (l1 + l2)[k] == l1[k];
    }
    forall k | 0 <= k < |l2| ensures !IsDone(l2[k]) {
      assert (l1 + l2)[|l1| + k] == l2[k];
    }
  }

  /** Ending the response does not stop later chunks from being interpreted. */
  lemma LaterChunksStillHandled(s: Session, parse: DeltaParser, st: StreamState, chunk: string)
    requires st.ended
    ensures OnData(s, parse, st, chunk).effects == OnData(s, parse, st.(ended := false), chunk).effects
  {
  }
}

=== FILE: extract.dfy ===
/**
 * Field extraction from one rendered page.
 *
 * A page is a snapshot of the values the document queries return; the
 * selector engine itself is not modelled. Each extractor is the `||` chain
 * of the scraper, with `""` standing for an absent result.
 */
module Extract {
  import opened Wrappers
  import opened JsString
  import opened Lists
  import opened Patterns

  /** What the document queries of one page return. */
  datatype PageSnapshot = PageSnapshot(
    /** `content` of the first `meta[property='og:site_name']`. */
    ogSiteName: Option<string>,
    /** Text of each `title` element. */
    titles: seq<string>,
    /** Text of each `h1` element. */
    h1s: seq<string>,
    /** `href` of each `a` element, in document order (absent when the anchor has none). */
    anchors: seq<Option<string>>,
    /** Text of `body`. */
    bodyText: string,
    /** `content` of the first `meta[name='description']`. */
    metaDescription: Option<string>,
    /** `content` of the first `meta[property='og:description']`. */
    ogDescription: Option<string>,
    /** Text of the first `.slogan, .tagline, .subtitle, .hero-text` element (`""` when none). */
    sloganText: string,
    /** Text of the `h2`/`h3` sibling immediately after the first `h1`, when there is one. */
    headingAfterH1: Option<string>,
    /** Text of each `h1, h2, h3` element, in document order. */
    headings: seq<string>,
    /** Combined text of `[id*='about'], [class*='about']`. */
    aboutBlocksText: string,
    /** Combined text of `section:contains('About')`. */
    aboutSectionsText: string,
    /** Text of each `p` element, in document order. */
    paragraphs: seq<string>)

  /** The first element's text, `""` for an empty selection. */
  function FirstText(texts: seq<string>): string {
    if |texts| == 0 then "" else texts[0]
  }

  // ---------------------------------------------------------------- name

  /** The provisional name set when the record is created: trimmed first title, else `'Unknown'`. */
  function InitialName(p: PageSnapshot): (r: string)
    ensures r != ""
  {
    var cands := [Trim(FirstText(p.titles)), "Unknown"];
    assert cands[1] != "";
    FirstNonEmpty(cands)
  }

  /** The name that replaces it: og:site_name, else the trimmed title text, else the trimmed first h1. */
  function Name(p: PageSnapshot): (r: string)
    ensures p.ogSiteName.GetOr("") != "" ==> r == p.ogSiteName.value
    ensures p.ogSiteName.GetOr("") == "" && !IsBlank(Join(p.titles, "")) ==> r == Trim(Join(p.titles, ""))
    ensures p.ogSiteName.GetOr("") == "" && IsBlank(Join(p.titles, "")) ==> r == Trim(FirstText(p.h1s))
  {
    var a, b, c := p.ogSiteName.GetOr(""), Trim(Join(p.titles, "")), Trim(FirstText(p.h1s));
    FirstOfThree(a, b, c);
    FirstNonEmpty([a, b, c])
  }

  // ---------------------------------------------------------------- anchors

  /** An anchor whose `href` starts with `scheme`: what `a[href^='scheme']` selects. */
  predicate HasScheme(href: Option<string>, scheme: string) {
    href.Some? && StartsWith(href.value, scheme)
  }

  /**
   * `$("a[href^='scheme']").first().attr('href')?.replace(scheme, '')`, with an
   * absent anchor read as `""`.
   */
  function SchemeValue(anchors: seq<Option<string>>, scheme: string): (r: string)
    ensures FindIndex(anchors, h => HasScheme(h, scheme)).None? ==> r == ""
    ensures FindIndex(anchors, h => HasScheme(h, scheme)).Some? ==>
      r == anchors[FindIndex(anchors, h => HasScheme(h, scheme)).value].value[|scheme|..]
  {
    match FindIndex(anchors, h => HasScheme(h, scheme))
    case None => ""
    case Some(i) =>
      ReplacePrefix(anchors[i].value, scheme);
      ReplaceFirst(anchors[i].value, scheme, "")
  }

  /** The address of the first `mailto:` anchor. */
  function MailtoEmail(p: PageSnapshot): string {
    SchemeValue(p.anchors, "mailto:")
  }

  /** The number of the first `tel:` anchor. */
  function TelPhone(p: PageSnapshot): string {
    SchemeValue(p.anchors, "tel:")
  }

  // ---------------------------------------------------------------- email and phone

  /** The first email-shaped token of the body text, `""` when there is none. */
  function BodyEmail(p: PageSnapshot): (r: string)
    ensures r != "" ==> Contains(p.bodyText, r) && exists at, dot :: EmailShaped(r, at, dot)
    ensures r != "" ==>
      exists i :: 0 <= i <= |p.bodyText| && EmailMatchAt(p.bodyText, i).Some?
        && r == p.bodyText[i..EmailMatchAt(p.bodyText, i).value.end]
        && forall k :: 0 <= k < i ==> EmailMatchAt(p.bodyText, k).None?
    ensures r == "" <==> forall k :: 0 <= k <= |p.bodyText| ==> EmailMatchAt(p.bodyText, k).None?
  {
    FirstEmailMatch(p.bodyText).GetOr("")
  }

  /** The first phone-shaped run of the body text, `""` when there is none. */
  function BodyPhone(p: PageSnapshot): (r: string)
    ensures r != "" ==> Contains(p.bodyText, r)
    ensures r != "" ==> |r| >= 8 && (r[0] == '+' || IsDigit(r[0]))
    ensures r != "" ==> forall j :: 0 < j < |r| ==> IsPhoneChar(r[j])
    ensures r != "" ==>
      exists i :: 0 <= i <= |p.bodyText| && PhoneMatchAt(p.bodyText, i).Some?
        && r == p.bodyText[i..PhoneMatchAt(p.bodyText, i).value]
        && forall k :: 0 <= k < i ==> PhoneMatchAt(p.bodyText, k).None?
    ensures r == "" <==> forall k :: 0 <= k <= |p.bodyText| ==> PhoneMatchAt(p.bodyText, k).None?
  {
    FirstPhoneMatch(p.bodyText).GetOr("")
  }

  /** Email: the first `mailto:` address, else the first body match, else `""`. */
  function Email(p: PageSnapshot): (r: string)
    ensures MailtoEmail(p) != "" ==> r == MailtoEmail(p)
    ensures MailtoEmail(p) == "" ==> r == BodyEmail(p)
  {
    FirstOfTwo(MailtoEmail(p), BodyEmail(p));
    FirstNonEmpty([MailtoEmail(p), BodyEmail(p)])
  }

  /** Phone: the first `tel:` number, else the first body match, else `""`. */
  function Phone(p: PageSnapshot): (r: string)
    ensures TelPhone(p) != "" ==> r == TelPhone(p)
    ensures TelPhone(p) == "" ==> r == BodyPhone(p)
  {
    FirstOfTwo(TelPhone(p), BodyPhone(p));
    FirstNonEmpty([TelPhone(p), BodyPhone(p)])
  }

  /** A non-empty `mailto:` address never loses to the body text. */
  lemma MailtoWins(p: PageSnapshot)
    requires MailtoEmail(p) != ""
    ensures Email(p) == MailtoEmail(p)
  {
  }

  /** The phone found on a page is the `tel:` number, or else a phone-shaped body run, or `""`. */
  lemma {:induction false} PhoneSource(p: PageSnapshot)
    ensures TelPhone(p) != "" ==> Phone(p) == TelPhone(p)
    ensures TelPhone(p) == "" && Phone(p) != "" ==>
      |Phone(p)| >= 8 && (Phone(p)[0] == '+' || IsDigit(Phone(p)[0]))
  {
    if TelPhone(p) == "" {
      FirstNonEmptySkip([TelPhone(p), BodyPhone(p)]);
      assert [TelPhone(p), BodyPhone(p)][1..] == [BodyPhone(p)];
    }
  }

  // ---------------------------------------------------------------- social links and headlines

  const SocialKeywords: seq<string> := ["facebook", "twitter", "linkedin", "instagram", "youtube"]

  /** A non-empty `href` whose lower-cased form mentions one of the social platforms. */
  predicate IsSocialHref(href: Option<string>) {
    && href.Some? && href.value != ""
    && exists k :: 0 <= k < |SocialKeywords| && Contains(ToLower(href.value), SocialKeywords[k])
  }

  /** The raw `href`s of an anchor sequence that pass a test, in document order. */
  function HrefsWhere(anchors: seq<Option<string>>, keep: Option<string> -> bool): (r: seq<string>)
    requires forall h :: keep(h) ==> h.Some?
    ensures |r| <= |anchors|
    ensures forall i :: 0 <= i < |r| ==> keep(Some(r[i])) && Some(r[i]) in anchors
    ensures forall i :: 0 <= i < |anchors| && keep(anchors[i]) ==> anchors[i].value in r
  {
    if |anchors| == 0 then []
    else
      var rest := HrefsWhere(anchors[1..], keep);
      assert forall i :: 1 <= i < |anchors| ==> anchors[i] == anchors[1..][i - 1];
      if keep(anchors[0]) then [anchors[0].value] + rest else rest
  }

  /** One `href` per social anchor, in document order, duplicates kept. */
  function SocialHrefs(p: PageSnapshot): (r: seq<string>)
    ensures forall i :: 0 <= i < |r| ==> IsSocialHref(Some(r[i])) && Some(r[i]) in p.anchors
    ensures forall i :: 0 <= i < |p.anchors| && IsSocialHref(p.anchors[i]) ==> p.anchors[i].value in r
  {
    HrefsWhere(p.anchors, IsSocialHref)
  }

  /** A heading counts as a headline when its trimmed text is not empty. */
  predicate IsHeadline(t: string) {
    t != ""
  }

  /** The trimmed text of every heading. */
  function TrimAll(texts: seq<string>): (r: seq<string>)
    ensures |r| == |texts|
    ensures forall i :: 0 <= i < |texts| ==> r[i] == Trim(texts[i])
  {
    seq(|texts|, i requires 0 <= i < |texts| => Trim(texts[i]))
  }

  /** The non-empty trimmed `h1, h2, h3` texts, in document order. */
  function Headlines(p: PageSnapshot): (r: seq<string>)
    ensures forall i :: 0 <= i < |r| ==> r[i] != "" && r[i] == Trim(r[i])
    ensures forall i :: 0 <= i < |r| ==> r[i] in TrimAll(p.headings)
    ensures forall i :: 0 <= i < |p.headings| && !IsBlank(p.headings[i]) ==> Trim(p.headings[i]) in r
  {
    TrimmedStayTrimmed(p.headings);
    Filter(TrimAll(p.headings), IsHeadline)
  }

  /** One more heading appends its trimmed text exactly when it is not blank: document order, duplicates kept. */
  lemma HeadlinesAppend(p: PageSnapshot, h: string)
    ensures Headlines(p.(headings := p.headings + [h]))
      == Headlines(p) + (if IsBlank(h) then [] else [Trim(h)])
  {
    assert TrimAll(p.headings + [h]) == TrimAll(p.headings) + [Trim(h)];
    FilterAppend(TrimAll(p.headings), Trim(h), IsHeadline);
  }

  /** Every trimmed text is its own trim. */
  lemma TrimmedStayTrimmed(texts: seq<string>)
    ensures forall t :: t in TrimAll(texts) ==> Trim(t) == t
  {
    forall t | t in TrimAll(texts)
      ensures Trim(t) == t
    {
      var k :| 0 <= k < |texts| && TrimAll(texts)[k] == t;
      TrimIdempotent(texts[k]);
    }
  }

  // ---------------------------------------------------------------- slogan

  /** Slogan, as the scraper computes it: a three-step chain, then the heading after the first h1. */
  function Slogan(p: PageSnapshot): (r: string)
    ensures p.metaDescription.GetOr("") != "" ==> r == p.metaDescription.value
    ensures r == "" <==>
      && p.metaDescription.GetOr("") == "" && p.ogDescription.GetOr("") == "" && IsBlank(p.sloganText)
      && IsBlank(p.headingAfterH1.GetOr(""))
  {
    var a, b, c := p.metaDescription.GetOr(""), p.ogDescription.GetOr(""), Trim(p.sloganText);
    var chained := FirstNonEmpty([a, b, c]);
    EmptyOfThree(a, b, c);
    FirstOfThree(a, b, c);
    var slogan := if chained == "" && p.headingAfterH1.Some? then Trim(p.headingAfterH1.value) else chained;
    FirstOfTwo(slogan, "");
    FirstNonEmpty([slogan, ""])
  }

  /** The slogan is the first non-empty of the four candidates, in this order. */
  lemma {:induction false} SloganChain(p: PageSnapshot)
    ensures Slogan(p) == FirstNonEmpty([
      p.metaDescription.GetOr(""), p.ogDescription.GetOr(""), Trim(p.sloganText),
      Trim(p.headingAfterH1.GetOr(""))])
  {
    var a, b, c := p.metaDescription.GetOr(""), p.ogDescription.GetOr(""), Trim(p.sloganText);
    var d := Trim(p.headingAfterH1.GetOr(""));
    assert Trim("") == "";
    ChainOfFour(a, b, c, d);
  }

  /** `a || b || c || d` is `(a || b || c) || d`. */
  lemma ChainOfFour(a: string, b: string, c: string, d: string)
    ensures FirstNonEmpty([a, b, c, d]) == FirstNonEmpty([FirstNonEmpty([a, b, c]), d])
  {
    assert [a, b, c, d][1..] == [b, c, d];
    assert [b, c, d][1..] == [c, d];
    assert [c, d][1..] == [d];
    assert [a, b, c][1..] == [b, c];
    assert [b, c][1..] == [c];
    assert [FirstNonEmpty([a, b, c]), d][1..] == [d];
  }

  // ---------------------------------------------------------------- about

  /** A paragraph that `/about/i` accepts. */
  predicate MentionsAbout(t: string) {
    ContainsIgnoreCase(t, "about")
  }

  /** The untrimmed text of the first paragraph mentioning "about", `""` when none does. */
  function AboutParagraph(p: PageSnapshot): (r: string)
    ensures r != "" ==> MentionsAbout(r) && r in p.paragraphs
    ensures r == "" <==> forall i :: 0 <= i < |p.paragraphs| ==> !MentionsAbout(p.paragraphs[i])
    ensures r != "" ==>
      exists i :: 0 <= i < |p.paragraphs| && p.paragraphs[i] == r
        && forall j :: 0 <= j < i ==> !MentionsAbout(p.paragraphs[j])
  {
    match FindIndex(p.paragraphs, MentionsAbout)
    case None => ""
    case Some(i) => p.paragraphs[i]
  }

  /** About, as the scraper computes it: meta description, then about blocks or sections, then a paragraph. */
  function About(p: PageSnapshot): (r: string)
    ensures p.metaDescription.GetOr("") != "" ==> r == p.metaDescription.value
    ensures r == "" <==>
      && p.metaDescription.GetOr("") == "" && IsBlank(p.aboutBlocksText) && IsBlank(p.aboutSectionsText)
      && forall i :: 0 <= i < |p.paragraphs| ==> !MentionsAbout(p.paragraphs[i])
  {
    var fromMeta := p.metaDescription.GetOr("");
    FirstOfTwo(Trim(p.aboutBlocksText), Trim(p.aboutSectionsText));
    var fromBlocks := if fromMeta == "" then FirstNonEmpty([Trim(p.aboutBlocksText), Trim(p.aboutSectionsText)]) else fromMeta;
    var fromParagraph := if fromBlocks == "" then AboutParagraph(p) else fromBlocks;
    FirstOfTwo(fromParagraph, "");
    FirstNonEmpty([fromParagraph, ""])
  }

  /** About is the first non-empty of the four candidates, in this order. */
  lemma {:induction false} AboutChain(p: PageSnapshot)
    ensures About(p) == FirstNonEmpty([
      p.metaDescription.GetOr(""), Trim(p.aboutBlocksText), Trim(p.aboutSectionsText), AboutParagraph(p)])
  {
    var a, b, c, d := p.metaDescription.GetOr(""), Trim(p.aboutBlocksText), Trim(p.aboutSectionsText), AboutParagraph(p);
    ChainOfFour(a, b, c, d);
    assert [b, c][1..] == [c];
    assert [a, b, c][1..] == [b, c];
  }

  /** About taken from a dedicated about page: about blocks, else the trimmed first paragraph. */
  function AboutPageAbout(p: PageSnapshot): (r: string)
    ensures r == "" <==> IsBlank(p.aboutBlocksText) && IsBlank(FirstText(p.paragraphs))
    ensures !IsBlank(p.aboutBlocksText) ==> r == Trim(p.aboutBlocksText)
    ensures IsBlank(p.aboutBlocksText) ==> r == Trim(FirstText(p.paragraphs))
  {
    var a, b := Trim(p.aboutBlocksText), Trim(FirstText(p.paragraphs));
    EmptyOfThree(a, b, "");
    FirstOfThree(a, b, "");
    FirstNonEmpty([a, b, ""])
  }

  /** `a || b`: `a` when it is non-empty, `b` otherwise. */
  lemma FirstOfTwo(a: string, b: string)
    ensures a != "" ==> FirstNonEmpty([a, b]) == a
    ensures a == "" ==> FirstNonEmpty([a, b]) == b
  {
    if a != "" {
      FirstNonEmptyHead([a, b]);
    } else {
      FirstNonEmptySkip([a, b]);
      assert [a, b][1..] == [b];
      if b != "" {
        FirstNonEmptyHead([b]);
      } else {
        FirstNonEmptySkip([b]);
      }
    }
  }

  /** `a || b || c`: the first of `a` and `b` that is non-empty, otherwise `c`. */
  lemma FirstOfThree(a: string, b: string, c: string)
    ensures a != "" ==> FirstNonEmpty([a, b, c]) == a
    ensures a == "" && b != "" ==> FirstNonEmpty([a, b, c]) == b
    ensures a == "" && b == "" ==> FirstNonEmpty([a, b, c]) == c
  {
    if a != "" {
      FirstNonEmptyHead([a, b, c]);
    } else {
      FirstNonEmptySkip([a, b, c]);
      assert [a, b, c][1..] == [b, c];
      FirstOfTwo(b, c);
    }
  }


  /** The first non-empty of three strings is empty exactly when all three are. */
  lemma EmptyOfThree(a: string, b: string, c: string)
    ensures FirstNonEmpty([a, b, c]) == "" <==> a == "" && b == "" && c == ""
  {
    var cands := [a, b, c];
    assert cands[0] == a && cands[1] == b && cands[2] == c;
  }

  // ---------------------------------------------------------------- fallback candidates

  /** A non-empty `href` that is neither a fragment nor a `javascript` pseudo-link. */
  predicate IsCandidateHref(href: Option<string>) {
    && href.Some? && href.value != ""
    && !StartsWith(href.value, "#") && !StartsWith(href.value, "javascript")
  }

  /** The `href`s the fallback resolves, in document order. */
  function CandidateHrefs(p: PageSnapshot): (r: seq<string>)
    ensures forall i :: 0 <= i < |r| ==> r[i] != "" && !StartsWith(r[i], "#") && !StartsWith(r[i], "javascript")
    ensures forall i :: 0 <= i < |p.anchors| && IsCandidateHref(p.anchors[i]) ==> p.anchors[i].value in r
  {
    HrefsWhere(p.anchors, IsCandidateHref)
  }
}

=== FILE: js_string.dfy ===
/**
 * The JavaScript string primitives the services rely on, over `seq<char>`:
 * `trim` and its whitespace set, `startsWith`, `includes`, `indexOf`,
 * `replace` with a string pattern, `toLowerCase`, `split` on one character,
 * `Array.prototype.join`, decimal rendering of a number in a template, and the
 * `a || b || c` idiom on strings, where `""` counts as absent.
 */
module JsString {
  import opened Wrappers

  /** ECMAScript WhiteSpace and LineTerminator code points: what `trim` strips and what `\s` matches. */
  predicate IsSpace(c: char) {
    || c == '\t' || c == '\n' || c == '\U{000B}' || c == '\U{000C}' || c == '\r' || c == ' '
    || c == '\U{00A0}' || c == '\U{1680}' || ('\U{2000}' <= c <= '\U{200A}')
    || c == '\U{2028}' || c == '\U{2029}' || c == '\U{202F}' || c == '\U{205F}'
    || c == '\U{3000}' || c == '\U{FEFF}'
  }

  /** Every character of `s` is whitespace (vacuously true of `""`). */
  predicate IsBlank(s: string) {
    forall i :: 0 <= i < |s| ==> IsSpace(s[i])
  }

  /** `String.prototype.trimStart`: the suffix left after dropping leading whitespace. */
  function TrimStart(s: string): (r: string)
    ensures |r| <= |s| && r == s[|s| - |r|..]
    ensures IsBlank(s[..|s| - |r|])
    ensures r == [] || !IsSpace(r[0])
  {
    if |s| > 0 && IsSpace(s[0]) then TrimStart(s[1..]) else s
  }

  /** `String.prototype.trimEnd`: the prefix left after dropping trailing whitespace. */
  function TrimEnd(s: string): (r: string)
    ensures |r| <= |s| && r == s[..|r|]
    ensures IsBlank(s[|r|..])
    ensures r == [] || !IsSpace(r[|r| - 1])
  {
    if |s| > 0 && IsSpace(s[|s| - 1]) then
      var r := TrimEnd(s[..|s| - 1]);
      assert s[|r|..] == s[..|s| - 1][|r|..] + [s[|s| - 1]];
      r
    else s
  }

  /** `String.prototype.trim`. */
  function Trim(s: string): (r: string)
    ensures |r| <= |s|
    ensures r == [] <==> IsBlank(s)
    ensures r != [] ==> !IsSpace(r[0]) && !IsSpace(r[|r| - 1])
  {
    var t := TrimStart(s);
    var r := TrimEnd(t);
    assert r == [] ==> IsBlank(s) by {
      if r == [] {
        assert s == s[..|s| - |t|] + t;
        assert t == t[|r|..];
      }
    }
    r
  }

  /** `trim` removes whitespace from the start, then from the end. */
  lemma TrimIsBothEnds(s: string)
    ensures Trim(s) == TrimEnd(TrimStart(s))
  {
  }

  /** A string whose first and last characters are not whitespace is its own trim. */
  lemma TrimOfTrimmed(s: string)
    requires s == [] || (!IsSpace(s[0]) && !IsSpace(s[|s| - 1]))
    ensures Trim(s) == s
  {
  }

  /** `trim` is idempotent. */
  lemma TrimIdempotent(s: string)
    ensures Trim(Trim(s)) == Trim(s)
  {
    TrimOfTrimmed(Trim(s));
  }

  /** Whitespace around a core whose ends are not whitespace is exactly what `trim` removes. */
  lemma {:induction false} TrimSurrounded(a: string, m: string, b: string)
    requires IsBlank(a) && IsBlank(b)
    requires m != [] && !IsSpace(m[0]) && !IsSpace(m[|m| - 1])
    ensures Trim(a + m + b) == m
  {
    TrimStartBlankPrefix(a, m + b);
    assert a + m + b == a + (m + b);
    TrimEndBlankSuffix(m, b);
  }

  lemma {:induction false} TrimStartBlankPrefix(a: string, t: string)
    requires IsBlank(a)
    requires t != [] && !IsSpace(t[0])
    ensures TrimStart(a + t) == t
  {
    if a != [] {
      assert (a + t)[1..] == a[1..] + t;
      TrimStartBlankPrefix(a[1..], t);
    }
  }

  lemma {:induction false} TrimEndBlankSuffix(t: string, b: string)
    requires IsBlank(b)
    requires t != [] && !IsSpace(t[|t| - 1])
    ensures TrimEnd(t + b) == t
  {
    if b != [] {
      assert (t + b)[..|t + b| - 1] == t + b[..|b| - 1];
      TrimEndBlankSuffix(t, b[..|b| - 1]);
    }
  }

  /** A string whose first character is not whitespace keeps, once trimmed, every prefix ending in a non-space. */
  lemma {:induction false} TrimKeepsPrefix(a: string, m: string, p: string)
    requires IsBlank(a)
    requires p != [] && !IsSpace(p[0]) && !IsSpace(p[|p| - 1])
    requires StartsWith(m, p)
    ensures StartsWith(Trim(a + m), p)
  {
    assert m[0] == p[0];
    TrimBlankPrefix(a, m);
    TrimEndKeeps(m, |p| - 1);
    PrefixOfPrefix(m, TrimEnd(m), p);
  }

  /** Trimming a blank prefix followed by a non-space character trims only the end. */
  lemma TrimBlankPrefix(a: string, m: string)
    requires IsBlank(a)
    requires m != [] && !IsSpace(m[0])
    ensures Trim(a + m) == TrimEnd(m)
  {
    TrimStartBlankPrefix(a, m);
  }

  /** A prefix of `m` no longer than a prefix `r` of `m` is a prefix of `r`. */
  lemma PrefixOfPrefix(m: string, r: string, p: string)
    requires StartsWith(m, p) && |p| <= |r| <= |m| && r == m[..|r|]
    ensures StartsWith(r, p)
  {
    assert r[..|p|] == m[..|p|];
  }

  /** `trimEnd` never removes a non-whitespace character, nor anything before it. */
  lemma {:induction false} TrimEndKeeps(m: string, k: nat)
    requires k < |m| && !IsSpace(m[k])
    ensures |TrimEnd(m)| > k
  {
    if IsSpace(m[|m| - 1]) {
      TrimEndKeeps(m[..|m| - 1], k);
    }
  }

  /** `s.endsWith(e)`. */
  predicate EndsWith(s: string, e: string) {
    |e| <= |s| && s[|s| - |e|..] == e
  }

  /** A suffix of `h` followed by `tail` is a suffix of `h + tail`. */
  lemma SuffixExtends(h: string, tail: string, e: string)
    requires EndsWith(h, e)
    ensures EndsWith(h + tail, e + tail)
  {
    assert (h + tail)[|h| - |e|..] == h[|h| - |e|..] + tail;
  }

  /** `s.startsWith(p)`. */
  predicate StartsWith(s: string, p: string) {
    |p| <= |s| && s[..|p|] == p
  }

  /** `p` occurs in `s` starting at position `j`. */
  predicate OccursAt(s: string, p: string, j: nat) {
    j + |p| <= |s| && s[j..j + |p|] == p
  }

  /** The first position at or after `from` where `p` occurs in `s`, if any. */
  function IndexOfFrom(s: string, p: string, from: nat): (r: Option<nat>)
    ensures r.Some? ==> from <= r.value && OccursAt(s, p, r.value)
    ensures r.Some? ==> forall j :: from <= j < r.value ==> !OccursAt(s, p, j)
    ensures r.None? ==> forall j :: from <= j ==> !OccursAt(s, p, j)
    decreases |s| - from
  {
    if from + |p| > |s| then None
    else if OccursAt(s, p, from) then Some(from)
    else IndexOfFrom(s, p, from + 1)
  }

  /** `s.indexOf(p)`: the first position where `p` occurs in `s`, if any. */
  function IndexOf(s: string, p: string): Option<nat> {
    IndexOfFrom(s, p, 0)
  }

  /** `s.includes(p)`. */
  predicate Contains(s: string, p: string) {
    IndexOf(s, p).Some?
  }

  /** A string contains whatever occurs in it at some position. */
  lemma OccursContains(s: string, p: string, j: nat)
    requires OccursAt(s, p, j)
    ensures Contains(s, p)
  {
  }

  /** A string contains each of its own prefixes, in particular itself. */
  lemma ContainsPrefix(s: string, p: string)
    requires StartsWith(s, p)
    ensures Contains(s, p)
  {
  }

  /** `s.replace(p, rep)` with a string pattern: only the first occurrence is replaced. */
  function ReplaceFirst(s: string, p: string, rep: string): (r: string)
  {
    match IndexOf(s, p)
    case None => s
    case Some(i) => s[..i] + rep + s[i + |p|..]
  }

  /** Replacing a prefix by `""` removes exactly that prefix. */
  lemma ReplacePrefix(s: string, p: string)
    requires StartsWith(s, p)
    ensures ReplaceFirst(s, p, "") == s[|p|..]
  {
    assert OccursAt(s, p, 0);
  }

  /** Replacing a pattern that does not occur leaves the string unchanged. */
  lemma ReplaceAbsent(s: string, p: string, rep: string)
    requires !Contains(s, p)
    ensures ReplaceFirst(s, p, rep) == s
  {
  }

  /** The ASCII upper-case letters map to lower case; every other character is kept. */
  function LowerChar(c: char): (r: char)
    ensures 'A' <= c <= 'Z' ==> r as int == c as int + 32
    ensures !('A' <= c <= 'Z') ==> r == c
  {
    if 'A' <= c <= 'Z' then (c as int + 32) as char else c
  }

  /** `toLowerCase`, restricted to ASCII letters. */
  function ToLower(s: string): (r: string)
    ensures |r| == |s|
    ensures forall i :: 0 <= i < |s| ==> r[i] == LowerChar(s[i])
  {
    seq(|s|, i requires 0 <= i < |s| => LowerChar(s[i]))
  }

  /** A prefix of a string is a prefix of any extension of it. */
  lemma StartsWithAppend(a: string, b: string, p: string)
    requires StartsWith(a, p)
    ensures StartsWith(a + b, p)
  {
    assert (a + b)[..|p|] == a[..|p|];
  }

  /** Lower-casing twice is lower-casing once. */
  lemma ToLowerIdempotent(s: string)
    ensures ToLower(ToLower(s)) == ToLower(s)
  {
    assert forall i :: 0 <= i < |s| ==> LowerChar(LowerChar(s[i])) == LowerChar(s[i]);
  }

  /** `/p/i.test(s)` for a pattern made of ASCII characters: case-insensitive containment. */
  predicate ContainsIgnoreCase(s: string, p: string) {
    Contains(ToLower(s), ToLower(p))
  }

  /** `Array.prototype.join(sep)` on an array of strings. */
  function Join(xs: seq<string>, sep: string): (r: string)
    ensures |xs| == 1 ==> r == xs[0]
  {
    if |xs| == 0 then "" else if |xs| == 1 then xs[0] else xs[0] + sep + Join(xs[1..], sep)
  }

  /** Appending an element to a non-empty array appends the separator and the element to its join. */
  lemma {:induction false} JoinAppend(xs: seq<string>, x: string, sep: string)
    requires |xs| > 0
    ensures Join(xs + [x], sep) == Join(xs, sep) + sep + x
  {
    if |xs| == 1 {
      assert xs + [x] == [xs[0], x];
      assert Join([x], sep) == x;
    } else {
      assert (xs + [x])[1..] == xs[1..] + [x];
      JoinAppend(xs[1..], x, sep);
    }
  }

  /** With a non-empty separator, a join is empty exactly when there is nothing to join but empty text. */
  lemma JoinEmpty(xs: seq<string>, sep: string)
    requires sep != ""
    ensures Join(xs, sep) == "" <==> |xs| == 0 || (|xs| == 1 && xs[0] == "")
  {
    if |xs| > 1 {
      assert |Join(xs, sep)| >= |sep|;
    }
  }

  /** Joining ends with the last element. */
  lemma {:induction false} JoinEndsWithLast(xs: seq<string>, sep: string)
    requires |xs| > 0
    ensures |xs[|xs| - 1]| <= |Join(xs, sep)|
    ensures Join(xs, sep)[|Join(xs, sep)| - |xs[|xs| - 1]|..] == xs[|xs| - 1]
  {
    if |xs| > 1 {
      JoinEndsWithLast(xs[1..], sep);
      var j := Join(xs[1..], sep);
      assert Join(xs, sep) == xs[0] + sep + j;
      assert xs[1..][|xs[1..]| - 1] == xs[|xs| - 1];
    }
  }

  /** The index of the first `d` in `s`, searching from position `from`. */
  function IndexOfChar(s: string, d: char, from: nat): (r: Option<nat>)
    requires from <= |s|
    ensures r.Some? ==> from <= r.value < |s| && s[r.value] == d
    ensures r.Some? ==> forall j :: from <= j < r.value ==> s[j] != d
    ensures r.None? ==> forall j :: from <= j < |s| ==> s[j] != d
    decreases |s| - from
  {
    if from == |s| then None
    else if s[from] == d then Some(from)
    else IndexOfChar(s, d, from + 1)
  }

  /** `s.split(d)` for a one-character separator: always at least one part. */
  function Split(s: string, d: char): (r: seq<string>)
    ensures |r| >= 1
    ensures forall k, i :: 0 <= k < |r| && 0 <= i < |r[k]| ==> r[k][i] != d
    ensures Join(r, [d]) == s
    decreases |s|
  {
    match IndexOfChar(s, d, 0)
    case None => [s]
    case Some(i) =>
      var rest := Split(s[i + 1..], d);
      assert s == s[..i] + [d] + s[i + 1..];
      [s[..i]] + rest
  }

  /** Splitting a join of separator-free parts gives the parts back. */
  lemma {:induction false} SplitJoin(parts: seq<string>, d: char)
    requires |parts| >= 1
    requires forall k, i :: 0 <= k < |parts| && 0 <= i < |parts[k]| ==> parts[k][i] != d
    ensures Split(Join(parts, [d]), d) == parts
  {
    if |parts| == 1 {
      assert IndexOfChar(parts[0], d, 0).None?;
    } else {
      var tail := Join(parts[1..], [d]);
      assert Join(parts, [d]) == parts[0] + [d] + tail;
      SplitAtFirst(parts[0], tail, d);
      assert forall k, i :: 0 <= k < |parts[1..]| && 0 <= i < |parts[1..][k]| ==> parts[1..][k][i] != d by {
        assert forall k :: 0 <= k < |parts[1..]| ==> parts[1..][k] == parts[k + 1];
      }
      SplitJoin(parts[1..], d);
      assert parts == [parts[0]] + parts[1..];
    }
  }

  /** Splitting cuts at the first separator. */
  lemma SplitAtFirst(p: string, tail: string, d: char)
    requires forall i :: 0 <= i < |p| ==> p[i] != d
    ensures Split(p + [d] + tail, d) == [p] + Split(tail, d)
  {
    var s := p + [d] + tail;
    assert s[|p|] == d;
    assert forall j :: 0 <= j < |p| ==> s[j] == p[j];
    assert IndexOfChar(s, d, 0) == Some(|p|);
    assert s[..|p|] == p;
    assert s[|p| + 1..] == tail;
  }

  /** The decimal digit of a value below ten. */
  function DigitChar(d: nat): (c: char)
    requires d < 10
    ensures '0' <= c <= '9'
  {
    ('0' as int + d) as char
  }

  /** The decimal value of a string of digits. */
  function DecimalValue(s: string): nat
    requires forall i :: 0 <= i < |s| ==> '0' <= s[i] <= '9'
  {
    if |s| == 0 then 0 else DecimalValue(s[..|s| - 1]) * 10 + (s[|s| - 1] as int - '0' as int)
  }

  /** A number interpolated into a template literal: its decimal digits, no leading zero. */
  function FromNat(n: nat): (r: string)
    ensures |r| >= 1
    ensures forall i :: 0 <= i < |r| ==> '0' <= r[i] <= '9'
    ensures |r| > 1 ==> r[0] != '0'
  {
    if n < 10 then [DigitChar(n)] else FromNat(n / 10) + [DigitChar(n % 10)]
  }

  /** Reading back the digits of a rendered number gives the number. */
  lemma {:induction false} FromNatValue(n: nat)
    ensures DecimalValue(FromNat(n)) == n
  {
    if n >= 10 {
      FromNatValue(n / 10);
      var r := FromNat(n);
      assert r[..|r| - 1] == FromNat(n / 10);
    }
  }

  /**
   * The JavaScript idiom `a || b || ... || z` over strings: the first candidate
   * that is not `""`, or `""` when there is none (the last operand is returned
   * as is, and it can only be `""` then).
   */
  function FirstNonEmpty(cands: seq<string>): (r: string)
    ensures r == "" <==> forall k :: 0 <= k < |cands| ==> cands[k] == ""
    ensures r != "" ==> exists k :: 0 <= k < |cands| && cands[k] == r && forall j :: 0 <= j < k ==> cands[j] == ""
  {
    if |cands| == 0 then ""
    else if cands[0] != "" then cands[0]
    else
      var r := FirstNonEmpty(cands[1..]);
      assert r != "" ==> exists k :: 1 <= k < |cands| && cands[k] == r && forall j :: 0 <= j < k ==> cands[j] == "" by {
        if r != "" {
          var k :| 0 <= k < |cands[1..]| && cands[1..][k] == r && forall j :: 0 <= j < k ==> cands[1..][j] == "";
          assert cands[k + 1] == r;
          assert forall j :: 1 <= j < k + 1 ==> cands[j] == cands[1..][j - 1];
        }
      }
      r
  }

  /** A non-empty first candidate always wins. */
  lemma FirstNonEmptyHead(cands: seq<string>)
    requires |cands| > 0 && cands[0] != ""
    ensures FirstNonEmpty(cands) == cands[0]
  {
  }

  /** An empty first candidate is skipped. */
  lemma FirstNonEmptySkip(cands: seq<string>)
    requires |cands| > 0 && cands[0] == ""
    ensures FirstNonEmpty(cands) == FirstNonEmpty(cands[1..])
  {
  }
}

=== FILE: lists.dfy ===
/** Order-preserving sequence scans: `Array.prototype.filter` and `Array.prototype.findIndex`. */
module Lists {
  import opened Wrappers

  /** The elements of `s` that satisfy `p`, in their original order. */
  function Filter<T>(s: seq<T>, p: T -> bool): (r: seq<T>)
    ensures |r| <= |s|
    ensures forall i :: 0 <= i < |r| ==> p(r[i]) && r[i] in s
    ensures forall i :: 0 <= i < |s| && p(s[i]) ==> s[i] in r
  {
    if |s| == 0 then []
    else
      var rest := Filter(s[1..], p);
      assert forall i :: 1 <= i < |s| ==> s[i] == s[1..][i - 1];
      if p(s[0]) then [s[0]] + rest else rest
  }

  /** Filtering a longer sequence extends the filtered prefix: the scan keeps document order. */
  lemma {:induction false} FilterAppend<T>(s: seq<T>, x: T, p: T -> bool)
    ensures Filter(s + [x], p) == Filter(s, p) + (if p(x) then [x] else [])
  {
    if |s| > 0 {
      assert (s + [x])[1..] == s[1..] + [x];
      FilterAppend(s[1..], x, p);
    } else {
      assert s + [x] == [x];
    }
  }

  /** Filtering keeps every qualifying element, duplicates included. */
  lemma {:induction false} FilterAllPass<T>(s: seq<T>, p: T -> bool)
    requires forall i :: 0 <= i < |s| ==> p(s[i])
    ensures Filter(s, p) == s
  {
    if |s| > 0 {
      FilterAllPass(s[1..], p);
    }
  }

  /** The index of the first element of `s` that satisfies `p`, if any. */
  function FindIndex<T>(s: seq<T>, p: T -> bool): (r: Option<nat>)
    ensures r.Some? ==> r.value < |s| && p(s[r.value])
    ensures r.Some? ==> forall j :: 0 <= j < r.value ==> !p(s[j])
    ensures r.None? ==> forall j :: 0 <= j < |s| ==> !p(s[j])
  {
    if |s| == 0 then None
    else if p(s[0]) then Some(0)
    else
      match FindIndex(s[1..], p)
      case None => None
      case Some(i) => Some(i + 1)
  }

  /** `Array.prototype.find`: the first element of `s` that satisfies `p`, if any. */
  function Find<T>(s: seq<T>, p: T -> bool): Option<T> {
    match FindIndex(s, p)
    case None => None
    case Some(i) => Some(s[i])
  }
}

=== FILE: patterns.dfy ===
/**
 * The regular expressions the scraper applies, as explicit scanners with
 * JavaScript's leftmost, greedy, backtracking semantics:
 *   phone   /(\+?\d[\d\s().-]{7,})/      first match in the body text
 *   email   /[a-zA-Z0-9._%+-]+@[a-zA-Z0-9.-]+\.[a-z]{2,}/   first match in the body text
 *   about   /(about|about_us|about-us|our-story|who-we-are)/i      link test
 *   contact /(contact|contact_us|contact-us|contacts|get-in-touch)/i  link test
 */
module Patterns {
  import opened Wrappers
  import opened JsString

  /** `\d`: an ASCII decimal digit. */
  predicate IsDigit(c: char) {
    '0' <= c <= '9'
  }

  predicate IsAsciiLetter(c: char) {
    ('a' <= c <= 'z') || ('A' <= c <= 'Z')
  }

  // ---------------------------------------------------------------- phone

  /** The class `[\d\s().-]`. */
  predicate IsPhoneChar(c: char) {
    IsDigit(c) || IsSpace(c) || c == '(' || c == ')' || c == '.' || c == '-'
  }

  /** The end of the longest run of phone characters starting at `k`. */
  function PhoneRunEnd(s: string, k: nat): (e: nat)
    requires k <= |s|
    ensures k <= e <= |s|
    ensures forall j :: k <= j < e ==> IsPhoneChar(s[j])
    ensures e == |s| || !IsPhoneChar(s[e])
    decreases |s| - k
  {
    if k < |s| && IsPhoneChar(s[k]) then PhoneRunEnd(s, k + 1) else k
  }

  /**
   * Where the phone pattern's first digit sits when a match starts at `i`:
   * after an optional `+`, which is given back when no digit follows it.
   */
  function PhoneDigitAt(s: string, i: nat): Option<nat>
    requires i <= |s|
  {
    if i + 1 < |s| && s[i] == '+' && IsDigit(s[i + 1]) then Some(i + 1)
    else if i < |s| && IsDigit(s[i]) then Some(i)
    else None
  }

  /** The end of the phone pattern's match starting exactly at `i`, if it matches there. */
  function PhoneMatchAt(s: string, i: nat): (r: Option<nat>)
    requires i <= |s|
    ensures r.Some? ==> i + 8 <= r.value <= |s|
    ensures r.Some? ==> s[i] == '+' || IsDigit(s[i])
    ensures r.Some? ==> forall j :: i < j < r.value ==> IsPhoneChar(s[j])
    ensures r.Some? ==> r.value == |s| || !IsPhoneChar(s[r.value])
  {
    match PhoneDigitAt(s, i)
    case None => None
    case Some(d) =>
      var e := PhoneRunEnd(s, d + 1);
      if e - (d + 1) >= 7 then Some(e) else None
  }

  /** The leftmost position at or after `from` where the phone pattern matches. */
  function PhoneSearch(s: string, from: nat): (r: Option<nat>)
    requires from <= |s|
    ensures r.Some? ==> from <= r.value <= |s| && PhoneMatchAt(s, r.value).Some?
    ensures r.Some? ==> forall k :: from <= k < r.value ==> PhoneMatchAt(s, k).None?
    ensures r.None? ==> forall k :: from <= k <= |s| ==> PhoneMatchAt(s, k).None?
    decreases |s| - from
  {
    if PhoneMatchAt(s, from).Some? then Some(from)
    else if from == |s| then None
    else PhoneSearch(s, from + 1)
  }

  /** `text.match(/(\+?\d[\d\s().-]{7,})/)?.[0]`. */
  function FirstPhoneMatch(s: string): (r: Option<string>)
    ensures r.Some? ==> |r.value| >= 8
    ensures r.Some? ==> r.value[0] == '+' || IsDigit(r.value[0])
    ensures r.Some? ==> forall j :: 0 < j < |r.value| ==> IsPhoneChar(r.value[j])
    ensures r.Some? ==> Contains(s, r.value)
    ensures r.Some? ==>
      exists i :: 0 <= i <= |s| && PhoneMatchAt(s, i).Some?
        && r.value == s[i..PhoneMatchAt(s, i).value]
        && forall k :: 0 <= k < i ==> PhoneMatchAt(s, k).None?
    ensures r.None? ==> forall k :: 0 <= k <= |s| ==> PhoneMatchAt(s, k).None?
  {
    match PhoneSearch(s, 0)
    case None => None
    case Some(i) =>
      var e := PhoneMatchAt(s, i).value;
      var m := s[i..e];
      assert OccursAt(s, m, i);
      assert forall j :: 0 < j < |m| ==> m[j] == s[i + j];
      assert PhoneMatchAt(s, i).Some? && m == s[i..PhoneMatchAt(s, i).value];
      Some(m)
  }

  // ---------------------------------------------------------------- email

  /** The class `[a-zA-Z0-9._%+-]` of the part before `@`. */
  predicate IsLocalChar(c: char) {
    IsAsciiLetter(c) || IsDigit(c) || c == '.' || c == '_' || c == '%' || c == '+' || c == '-'
  }

  /** The class `[a-zA-Z0-9.-]` of the part after `@`. */
  predicate IsDomainChar(c: char) {
    IsAsciiLetter(c) || IsDigit(c) || c == '.' || c == '-'
  }

  /** The class `[a-z]` of the final label. */
  predicate IsLowerLetter(c: char) {
    'a' <= c <= 'z'
  }

  function LocalRunEnd(s: string, k: nat): (e: nat)
    requires k <= |s|
    ensures k <= e <= |s|
    ensures forall j :: k <= j < e ==> IsLocalChar(s[j])
    ensures e == |s| || !IsLocalChar(s[e])
    decreases |s| - k
  {
    if k < |s| && IsLocalChar(s[k]) then LocalRunEnd(s, k + 1) else k
  }

  function DomainRunEnd(s: string, k: nat): (e: nat)
    requires k <= |s|
    ensures k <= e <= |s|
    ensures forall j :: k <= j < e ==> IsDomainChar(s[j])
    ensures e == |s| || !IsDomainChar(s[e])
    decreases |s| - k
  {
    if k < |s| && IsDomainChar(s[k]) then DomainRunEnd(s, k + 1) else k
  }

  function LowerRunEnd(s: string, k: nat): (e: nat)
    requires k <= |s|
    ensures k <= e <= |s|
    ensures forall j :: k <= j < e ==> IsLowerLetter(s[j])
    ensures e == |s| || !IsLowerLetter(s[e])
    decreases |s| - k
  {
    if k < |s| && IsLowerLetter(s[k]) then LowerRunEnd(s, k + 1) else k
  }

  /** A dot at `q` followed by at least two lower-case letters: where `\.[a-z]{2,}` can match. */
  predicate TopLabelAt(s: string, q: nat)
    requires q < |s|
  {
    s[q] == '.' && LowerRunEnd(s, q + 1) >= q + 3
  }

  /**
   * The greedy `[a-zA-Z0-9.-]+` is given back one character at a time, so the
   * dot chosen is the LAST position in `[lo, hi)` where `\.[a-z]{2,}` matches.
   */
  function LastTopLabel(s: string, lo: nat, hi: nat): (r: Option<nat>)
    requires lo <= hi <= |s|
    ensures r.Some? ==> lo <= r.value < hi && TopLabelAt(s, r.value)
    ensures r.Some? ==> forall q :: r.value < q < hi ==> !TopLabelAt(s, q)
    ensures r.None? ==> forall q :: lo <= q < hi ==> !TopLabelAt(s, q)
    decreases hi - lo
  {
    if hi == lo then None
    else if TopLabelAt(s, hi - 1) then Some(hi - 1)
    else LastTopLabel(s, lo, hi - 1)
  }

  /** The positions of a match of the email pattern: its start, its `@`, its final dot and its end. */
  datatype EmailSpan = EmailSpan(start: nat, at: nat, dot: nat, end: nat)

  /** A well-formed email token: local part, `@`, domain part, dot, two or more lower-case letters. */
  predicate EmailShaped(m: string, at: nat, dot: nat) {
    && 0 < at && at + 1 < dot && dot + 3 <= |m|
    && m[at] == '@' && m[dot] == '.'
    && (forall j :: 0 <= j < at ==> IsLocalChar(m[j]))
    && (forall j :: at < j < dot ==> IsDomainChar(m[j]))
    && (forall j :: dot < j < |m| ==> IsLowerLetter(m[j]))
  }

  /** The email pattern's match starting exactly at `i`, if it matches there. */
  function EmailMatchAt(s: string, i: nat): (r: Option<EmailSpan>)
    requires i <= |s|
    ensures r.Some? ==> r.value.start == i < r.value.at < r.value.dot < r.value.end <= |s|
    ensures r.Some? ==> EmailShaped(s[i..r.value.end], r.value.at - i, r.value.dot - i)
    ensures r.Some? ==> r.value.end == |s| || !IsLowerLetter(s[r.value.end])
  {
    var j := LocalRunEnd(s, i);
    if j == i || j == |s| || s[j] != '@' then None
    else
      var e := DomainRunEnd(s, j + 1);
      if e < j + 2 then None
      else
        match LastTopLabel(s, j + 2, e)
        case None => None
        case Some(q) =>
          var f := LowerRunEnd(s, q + 1);
          var m := s[i..f];
          assert forall k :: 0 <= k < |m| ==> m[k] == s[i + k];
          Some(EmailSpan(i, j, q, f))
  }

  /** The leftmost position at or after `from` where the email pattern matches. */
  function EmailSearch(s: string, from: nat): (r: Option<EmailSpan>)
    requires from <= |s|
    ensures r.Some? ==> from <= r.value.start <= |s| && EmailMatchAt(s, r.value.start) == r
    ensures r.Some? ==> forall k :: from <= k < r.value.start ==> EmailMatchAt(s, k).None?
    ensures r.None? ==> forall k :: from <= k <= |s| ==> EmailMatchAt(s, k).None?
    decreases |s| - from
  {
    var here := EmailMatchAt(s, from);
    if here.Some? then here
    else if from == |s| then None
    else EmailSearch(s, from + 1)
  }

  /** `text.match(/[a-zA-Z0-9._%+-]+@[a-zA-Z0-9.-]+\.[a-z]{2,}/)?.[0]`. */
  function FirstEmailMatch(s: string): (r: Option<string>)
    ensures r.Some? ==> exists at, dot :: EmailShaped(r.value, at, dot)
    ensures r.Some? ==> Contains(s, r.value)
    ensures r.Some? ==>
      exists i :: 0 <= i <= |s| && EmailMatchAt(s, i).Some?
        && r.value == s[i..EmailMatchAt(s, i).value.end]
        && forall k :: 0 <= k < i ==> EmailMatchAt(s, k).None?
    ensures r.None? ==> forall k :: 0 <= k <= |s| ==> EmailMatchAt(s, k).None?
  {
    match EmailSearch(s, 0)
    case None => None
    case Some(sp) =>
      SpanFound(s, sp);
      assert EmailMatchAt(s, sp.start).Some? && s[sp.start..sp.end] == s[sp.start..EmailMatchAt(s, sp.start).value.end];
      Some(s[sp.start..sp.end])
  }

  /** The text of a match is a well-formed email token occurring in the searched text. */
  lemma SpanFound(s: string, sp: EmailSpan)
    requires sp.start <= |s| && EmailMatchAt(s, sp.start) == Some(sp)
    ensures EmailShaped(s[sp.start..sp.end], sp.at - sp.start, sp.dot - sp.start)
    ensures Contains(s, s[sp.start..sp.end])
  {
    SliceContained(s, sp.start, sp.end);
  }

  lemma SliceContained(s: string, i: nat, j: nat)
    requires i <= j <= |s|
    ensures Contains(s, s[i..j])
  {
    OccursContains(s, s[i..j], i);
  }

  // ---------------------------------------------------------------- link patterns

  /** Some alternative of an ASCII, case-insensitive alternation occurs in `s`. */
  predicate MatchesAnyIgnoreCase(s: string, alternatives: seq<string>) {
    exists k :: 0 <= k < |alternatives| && ContainsIgnoreCase(s, alternatives[k])
  }

  const AboutAlternatives: seq<string> := ["about", "about_us", "about-us", "our-story", "who-we-are"]
  const ContactAlternatives: seq<string> := ["contact", "contact_us", "contact-us", "contacts", "get-in-touch"]

  /** `aboutPatterns.test(link)`. */
  predicate IsAboutLink(link: string) {
    MatchesAnyIgnoreCase(link, AboutAlternatives)
  }

  /** `contactPatterns.test(link)`. */
  predicate IsContactLink(link: string) {
    MatchesAnyIgnoreCase(link, ContactAlternatives)
  }

  /** A string that contains `p + q` contains `p`. */
  lemma ContainsLonger(s: string, p: string, q: string)
    requires Contains(s, p + q)
    ensures Contains(s, p)
  {
    var i := IndexOf(s, p + q).value;
    assert s[i..i + |p|] == (p + q)[..|p|];
    assert OccursAt(s, p, i);
  }

  /** The about alternation reduces to three words: `about_us` and `about-us` only add to `about`. */
  lemma AboutLinkReduces(link: string)
    ensures IsAboutLink(link) <==>
      ContainsIgnoreCase(link, "about") || ContainsIgnoreCase(link, "our-story") || ContainsIgnoreCase(link, "who-we-are")
  {
    var l := ToLower(link);
    assert ToLower("about") == "about";
    assert ToLower("about_us") == "about" + "_us";
    assert ToLower("about-us") == "about" + "-us";
    assert ToLower("our-story") == "our-story";
    assert ToLower("who-we-are") == "who-we-are";
    if ContainsIgnoreCase(link, "about_us") {
      ContainsLonger(l, "about", "_us");
    }
    if ContainsIgnoreCase(link, "about-us") {
      ContainsLonger(l, "about", "-us");
    }
    if ContainsIgnoreCase(link, "about") {
      assert ContainsIgnoreCase(link, AboutAlternatives[0]);
    }
    if ContainsIgnoreCase(link, "our-story") {
      assert ContainsIgnoreCase(link, AboutAlternatives[3]);
    }
    if ContainsIgnoreCase(link, "who-we-are") {
      assert ContainsIgnoreCase(link, AboutAlternatives[4]);
    }
  }

  /** The contact alternation reduces to two words: every other alternative extends `contact`. */
  lemma ContactLinkReduces(link: string)
    ensures IsContactLink(link) <==>
      ContainsIgnoreCase(link, "contact") || ContainsIgnoreCase(link, "get-in-touch")
  {
    var l := ToLower(link);
    assert ToLower("contact") == "contact";
    assert ToLower("contact_us") == "contact" + "_us";
    assert ToLower("contact-us") == "contact" + "-us";
    assert ToLower("contacts") == "contact" + "s";
    assert ToLower("get-in-touch") == "get-in-touch";
    if ContainsIgnoreCase(link, "contact_us") {
      ContainsLonger(l, "contact", "_us");
    }
    if ContainsIgnoreCase(link, "contact-us") {
      ContainsLonger(l, "contact", "-us");
    }
    if ContainsIgnoreCase(link, "contacts") {
      ContainsLonger(l, "contact", "s");
    }
    if ContainsIgnoreCase(link, "contact") {
      assert ContainsIgnoreCase(link, ContactAlternatives[0]);
    }
    if ContainsIgnoreCase(link, "get-in-touch") {
      assert ContainsIgnoreCase(link, ContactAlternatives[4]);
    }
  }
}

=== FILE: scraped_data.dfy ===
/**
 * The stored shape of one scraped website and of its team members.
 *
 * A scalar string path that was never set reads back as `undefined`. The
 * consumers coerce the scraped fields with `|| ''` or `|| 'N/A'`, which treat
 * `undefined` and `""` alike, so the stored record holds `""` there. The
 * record's `url` and a page's `url` are interpolated without a fallback and
 * would read `undefined` if unset; the scraper always sets `url` and stores no
 * page, so the model holds both as plain strings.
 * Array paths are never absent once stored: `team` and `pages` declare a
 * `[]` default and Mongoose gives every other array path an empty array.
 */
module ScrapedDataSchema {
  import opened Wrappers

  /** The per-platform link lists of a team member; each list may be absent. */
  datatype MemberSocialLinks = MemberSocialLinks(
    facebook: Option<seq<string>>,
    instagram: Option<seq<string>>,
    linkedin: Option<seq<string>>,
    other: Option<seq<string>>)

  /** A team member: every field is optional. */
  datatype TeamMember = TeamMember(
    name: Option<string>,
    email: Option<string>,
    phone: Option<string>,
    address: Option<string>,
    role: Option<string>,
    socialLinks: Option<MemberSocialLinks>)

  /** The captured texts of one page, in document order. */
  datatype PageTexts = PageTexts(url: string, texts: seq<string>)

  /** A stored scraping record. */
  datatype ScrapedData = ScrapedData(
    name: string,
    email: string,
    phone: string,
    socialLinks: seq<string>,
    links: seq<string>,
    about: string,
    headlines: seq<string>,
    slogan: string,
    url: string,
    userId: string,
    category: string,
    team: seq<TeamMember>,
    pages: seq<PageTexts>)

  /** The object handed to the model constructor: any path may be left out. */
  datatype PartialScrapedData = PartialScrapedData(
    name: Option<string>,
    email: Option<string>,
    phone: Option<string>,
    socialLinks: Option<seq<string>>,
    links: Option<seq<string>>,
    about: Option<string>,
    headlines: Option<seq<string>>,
    slogan: Option<string>,
    url: Option<string>,
    userId: Option<string>,
    category: Option<string>,
    team: Option<seq<TeamMember>>,
    pages: Option<seq<PageTexts>>)

  /** A team member with no field set. */
  const EmptyMember: TeamMember := TeamMember(None, None, None, None, None, None)

  /** A partial record with no path set. */
  const EmptyPartial: PartialScrapedData :=
    PartialScrapedData(None, None, None, None, None, None, None, None, None, None, None, None, None)

  /** The record stored for a partial object: given paths are kept, absent ones take their defaults. */
  function Stored(p: PartialScrapedData): (d: ScrapedData)
    ensures p.team.None? ==> d.team == []
    ensures p.pages.None? ==> d.pages == []
    ensures p.links.None? ==> d.links == []
    ensures p.url.Some? ==> d.url == p.url.value
    ensures p.category.None? ==> d.category == ""
  {
    ScrapedData(
      p.name.GetOr(""), p.email.GetOr(""), p.phone.GetOr(""),
      p.socialLinks.GetOr([]), p.links.GetOr([]), p.about.GetOr(""),
      p.headlines.GetOr([]), p.slogan.GetOr(""), p.url.GetOr(""),
      p.userId.GetOr(""), p.category.GetOr(""), p.team.GetOr([]), p.pages.GetOr([]))
  }

  /** Every path of a stored record, given explicitly. */
  function AsPartial(d: ScrapedData): PartialScrapedData {
    PartialScrapedData(
      Some(d.name), Some(d.email), Some(d.phone), Some(d.socialLinks), Some(d.links),
      Some(d.about), Some(d.headlines), Some(d.slogan), Some(d.url), Some(d.userId),
      Some(d.category), Some(d.team), Some(d.pages))
  }

  /** Defaults only fill gaps: a fully given record is stored unchanged. */
  lemma StoredKeepsGiven(d: ScrapedData)
    ensures Stored(AsPartial(d)) == d
  {
  }

  /** A record built from nothing has no team members, no pages and no links. */
  lemma StoredDefaults()
    ensures Stored(EmptyPartial).team == []
    ensures Stored(EmptyPartial).pages == []
    ensures Stored(EmptyPartial).links == []
  {
  }
}

=== FILE: scraper.dfy ===
/**
 * `scrapeWebsite`: one rendered seed page fills a record through fixed
 * priority chains; when about, phone or email is still empty, the first
 * About-like and the first Contact-like link of the page are rendered and
 * fill only the fields that are still empty.
 *
 * Rendering a page and resolving an `href` against the seed URL are oracles
 * given as parameters. Neither is guarded in the source, so a failure of
 * either rejects the whole scrape and nothing is stored.
 */
module Scraper {
  import opened Wrappers
  import opened JsString
  import opened Lists
  import opened Patterns
  import opened Extract
  import ScrapedDataSchema

  /** Why a scrape rejects. */
  datatype ScrapeError =
    /** Navigating to this URL or reading its content failed. */
    | NavigationFailed(url: string)
    /** `new URL(href, base)` threw for this `href`. */
    | InvalidUrl(href: string)

  /** `new URL(href, base).toString()`: the resolved URL, or `None` where the constructor throws. */
  type Resolver = (string, string) -> Option<string>

  /** Navigate to a URL and snapshot the rendered document, or `None` where navigation throws. */
  type Fetcher = string -> Option<PageSnapshot>

  /** The object the scraper builds, saves and returns. */
  datatype Draft = Draft(
    url: string,
    name: string,
    email: string,
    phone: string,
    socialLinks: seq<string>,
    about: string,
    headlines: seq<string>,
    slogan: string,
    userId: string)

  /** Resolve every `href` against `base`, in order; the first one that cannot be resolved rejects. */
  function ResolveAll(hrefs: seq<string>, base: string, resolve: Resolver): (r: Result<seq<string>, ScrapeError>)
    ensures r.Success? <==> forall i :: 0 <= i < |hrefs| ==> resolve(hrefs[i], base).Some?
    ensures r.Success? ==> |r.value| == |hrefs|
    ensures r.Success? ==> forall i :: 0 <= i < |hrefs| ==> resolve(hrefs[i], base) == Some(r.value[i])
    ensures r.Failure? ==> exists i :: 0 <= i < |hrefs| && r.error == InvalidUrl(hrefs[i]) && resolve(hrefs[i], base).None?
  {
    if |hrefs| == 0 then Success([])
    else
      match resolve(hrefs[0], base)
      case None => Failure(InvalidUrl(hrefs[0]))
      case Some(u) =>
        var rest := ResolveAll(hrefs[1..], base, resolve);
        assert forall i :: 1 <= i < |hrefs| ==> hrefs[i] == hrefs[1..][i - 1];
        match rest
        case Failure(e) => Failure(e)
        case Success(us) => Success([u] + us)
  }

  /** The record filled from the seed page alone, before any fallback. */
  function Primary(seed: PageSnapshot, url: string, userId: string, resolve: Resolver): (r: Result<Draft, ScrapeError>)
    ensures r.Success? <==> forall i :: 0 <= i < |SocialHrefs(seed)| ==> resolve(SocialHrefs(seed)[i], url).Some?
    ensures r.Success? ==> r.value.url == url && r.value.userId == userId
    ensures r.Success? ==> |r.value.socialLinks| == |SocialHrefs(seed)|
    ensures r.Success? ==>
      && r.value.name == Name(seed) && r.value.email == Email(seed) && r.value.phone == Phone(seed)
      && r.value.about == About(seed) && r.value.headlines == Headlines(seed) && r.value.slogan == Slogan(seed)
  {
    var social :- ResolveAll(SocialHrefs(seed), url, resolve);
    Success(Draft(url, Name(seed), Email(seed), Phone(seed), social, About(seed), Headlines(seed), Slogan(seed), userId))
  }

  /** The fallback is attempted only when one of about, phone and email is empty. */
  predicate NeedsFallback(d: Draft) {
    d.about == "" || d.phone == "" || d.email == ""
  }

  /** The first About-like link, if any. */
  function AboutTarget(links: seq<string>): (r: Option<string>)
    ensures r.Some? ==> IsAboutLink(r.value) && r.value in links
    ensures r.None? <==> forall i :: 0 <= i < |links| ==> !IsAboutLink(links[i])
    ensures r.Some? ==> exists i :: 0 <= i < |links| && links[i] == r.value && forall j :: 0 <= j < i ==> !IsAboutLink(links[j])
  {
    Find(links, IsAboutLink)
  }

  /** The first Contact-like link, if any. */
  function ContactTarget(links: seq<string>): (r: Option<string>)
    ensures r.Some? ==> IsContactLink(r.value) && r.value in links
    ensures r.None? <==> forall i :: 0 <= i < |links| ==> !IsContactLink(links[i])
    ensures r.Some? ==> exists i :: 0 <= i < |links| && links[i] == r.value && forall j :: 0 <= j < i ==> !IsContactLink(links[j])
  {
    Find(links, IsContactLink)
  }

  /** Fill an empty about from the about page, when there is one. */
  function AboutFallback(d: Draft, links: seq<string>, fetch: Fetcher): (r: Result<Draft, ScrapeError>)
    requires d.about == ""
    ensures r.Success? ==> r.value == d.(about := r.value.about)
    ensures AboutTarget(links).None? ==> r == Success(d)
    ensures AboutTarget(links).Some? && fetch(AboutTarget(links).value).None? ==>
      r == Failure(NavigationFailed(AboutTarget(links).value))
    ensures AboutTarget(links).Some? && fetch(AboutTarget(links).value).Some? ==>
      r.Success? && r.value.about == AboutPageAbout(fetch(AboutTarget(links).value).value)
  {
    match AboutTarget(links)
    case None => Success(d)
    case Some(link) =>
      match fetch(link)
      case None => Failure(NavigationFailed(link))
      case Some(page) => Success(d.(about := AboutPageAbout(page)))
  }

  /** Fill an empty phone and an empty email from the contact page, when there is one. */
  function ContactFallback(d: Draft, links: seq<string>, fetch: Fetcher): (r: Result<Draft, ScrapeError>)
    ensures r.Success? ==> r.value == d.(phone := r.value.phone, email := r.value.email)
    ensures r.Success? && d.phone != "" ==> r.value.phone == d.phone
    ensures r.Success? && d.email != "" ==> r.value.email == d.email
    ensures ContactTarget(links).None? ==> r == Success(d)
    ensures ContactTarget(links).Some? && fetch(ContactTarget(links).value).None? ==>
      r == Failure(NavigationFailed(ContactTarget(links).value))
    ensures ContactTarget(links).Some? && fetch(ContactTarget(links).value).Some? ==>
      && r.Success?
      && (d.phone == "" ==> r.value.phone == Phone(fetch(ContactTarget(links).value).value))
      && (d.email == "" ==> r.value.email == Email(fetch(ContactTarget(links).value).value))
  {
    match ContactTarget(links)
    case None => Success(d)
    case Some(link) =>
      match fetch(link)
      case None => Failure(NavigationFailed(link))
      case Some(page) =>
        Success(d.(
          phone := if d.phone == "" then Phone(page) else d.phone,
          email := if d.email == "" then Email(page) else d.email))
  }

  /** The links the fallback searches: every candidate `href` of the seed page, resolved against the seed URL. */
  function FallbackLinks(seed: PageSnapshot, url: string, resolve: Resolver): Result<seq<string>, ScrapeError> {
    ResolveAll(CandidateHrefs(seed), url, resolve)
  }

  /** A page to visit, if any, can be rendered. */
  predicate Renders(target: Option<string>, fetch: Fetcher) {
    target.None? || fetch(target.value).Some?
  }

  /**
   * When the fallback pass completes: nothing is missing, or every candidate
   * `href` resolves, the about page renders if about is missing, and the
   * contact page renders if phone or email is missing.
   */
  predicate FallbackSucceeds(d: Draft, seed: PageSnapshot, url: string, resolve: Resolver, fetch: Fetcher) {
    || !NeedsFallback(d)
    || (&& FallbackLinks(seed, url, resolve).Success?
        && (d.about != "" || Renders(AboutTarget(FallbackLinks(seed, url, resolve).value), fetch))
        && ((d.phone != "" && d.email != "") || Renders(ContactTarget(FallbackLinks(seed, url, resolve).value), fetch)))
  }

  /** The fallback pass over the other pages; it never overwrites a field that is already filled. */
  function Fallback(d: Draft, seed: PageSnapshot, url: string, resolve: Resolver, fetch: Fetcher): (r: Result<Draft, ScrapeError>)
    ensures r.Success? <==> FallbackSucceeds(d, seed, url, resolve, fetch)
    ensures NeedsFallback(d) && FallbackLinks(seed, url, resolve).Failure? ==>
      r == Failure(FallbackLinks(seed, url, resolve).error)
    ensures !NeedsFallback(d) ==> r == Success(d)
    ensures r.Success? ==> r.value == d.(about := r.value.about, phone := r.value.phone, email := r.value.email)
    ensures r.Success? && d.about != "" ==> r.value.about == d.about
    ensures r.Success? && d.phone != "" ==> r.value.phone == d.phone
    ensures r.Success? && d.email != "" ==> r.value.email == d.email
  {
    if !NeedsFallback(d) then Success(d)
    else
      var links :- FallbackLinks(seed, url, resolve);
      var afterAbout :- if d.about == "" then AboutFallback(d, links, fetch) else Success(d);
      if afterAbout.phone == "" || afterAbout.email == "" then ContactFallback(afterAbout, links, fetch)
      else Success(afterAbout)
  }

  /** `scrapeWebsite(url, userId)`: render the seed page, extract, then fall back to the about and contact pages. */
  function ScrapeWebsite(url: string, userId: string, resolve: Resolver, fetch: Fetcher): (r: Result<Draft, ScrapeError>)
    ensures fetch(url).None? ==> r == Failure(NavigationFailed(url))
    ensures r.Success? ==> r.value.url == url && r.value.userId == userId
    ensures r.Success? <==>
      && fetch(url).Some?
      && Primary(fetch(url).value, url, userId, resolve).Success?
      && FallbackSucceeds(Primary(fetch(url).value, url, userId, resolve).value, fetch(url).value, url, resolve, fetch)
  {
    match fetch(url)
    case None => Failure(NavigationFailed(url))
    case Some(seed) =>
      var primary :- Primary(seed, url, userId, resolve);
      Fallback(primary, seed, url, resolve, fetch)
  }

  /** The stored record: the scraper's object plus the schema defaults for every path it leaves out. */
  function Persisted(d: Draft): (s: ScrapedDataSchema.ScrapedData)
    ensures s.links == [] && s.team == [] && s.pages == [] && s.category == ""
    ensures s.url == d.url && s.email == d.email && s.phone == d.phone && s.about == d.about
  {
    ScrapedDataSchema.Stored(ScrapedDataSchema.PartialScrapedData(
      Some(d.name), Some(d.email), Some(d.phone), Some(d.socialLinks), None, Some(d.about),
      Some(d.headlines), Some(d.slogan), Some(d.url), Some(d.userId), None, None, None))
  }

  // ---------------------------------------------------------------- properties of a whole scrape

  /** What a successful scrape keeps from the seed page, and what the fallback may still fill. */
  lemma SeedFieldsSurvive(url: string, userId: string, resolve: Resolver, fetch: Fetcher)
    requires ScrapeWebsite(url, userId, resolve, fetch).Success?
    ensures fetch(url).Some?
    ensures var seed, r := fetch(url).value, ScrapeWebsite(url, userId, resolve, fetch).value;
      && r.name == Name(seed) && r.slogan == Slogan(seed) && r.headlines == Headlines(seed)
      && |r.socialLinks| == |SocialHrefs(seed)|
      && (forall i :: 0 <= i < |r.socialLinks| ==> resolve(SocialHrefs(seed)[i], url) == Some(r.socialLinks[i]))
      && (Email(seed) != "" ==> r.email == Email(seed))
      && (Phone(seed) != "" ==> r.phone == Phone(seed))
      && (About(seed) != "" ==> r.about == About(seed))
  {
    var seed := fetch(url).value;
    var primary := Primary(seed, url, userId, resolve);
    assert primary.Success?;
  }

  /** A `mailto:` address on the seed page is the scraped email, whatever the body text or other pages say. */
  lemma MailtoNeverLoses(url: string, userId: string, resolve: Resolver, fetch: Fetcher)
    requires ScrapeWebsite(url, userId, resolve, fetch).Success?
    requires fetch(url).Some? && MailtoEmail(fetch(url).value) != ""
    ensures ScrapeWebsite(url, userId, resolve, fetch).value.email == MailtoEmail(fetch(url).value)
  {
    SeedFieldsSurvive(url, userId, resolve, fetch);
  }

  /** When the seed page yields about, phone and email, no other page is rendered and no other link resolved. */
  lemma NoFallbackWhenComplete(url: string, userId: string, resolve: Resolver, fetch: Fetcher, fetch': Fetcher)
    requires fetch(url) == fetch'(url) && fetch(url).Some?
    requires var seed := fetch(url).value; About(seed) != "" && Phone(seed) != "" && Email(seed) != ""
    ensures ScrapeWebsite(url, userId, resolve, fetch) == ScrapeWebsite(url, userId, resolve, fetch')
    ensures ScrapeWebsite(url, userId, resolve, fetch) == Primary(fetch(url).value, url, userId, resolve)
  {
  }

  /** An about missing from the seed page is taken from the first About-like link's page. */
  lemma AboutFromAboutPage(url: string, userId: string, resolve: Resolver, fetch: Fetcher, link: string, page: PageSnapshot)
    requires fetch(url).Some?
    requires var seed := fetch(url).value;
      && About(seed) == ""
      && FallbackLinks(seed, url, resolve).Success?
      && AboutTarget(FallbackLinks(seed, url, resolve).value) == Some(link)
    requires fetch(link) == Some(page)
    requires ScrapeWebsite(url, userId, resolve, fetch).Success?
    ensures ScrapeWebsite(url, userId, resolve, fetch).value.about == AboutPageAbout(page)
  {
    var seed := fetch(url).value;
    var primary := Primary(seed, url, userId, resolve);
    assert primary.Success?;
    assert ScrapeWebsite(url, userId, resolve, fetch) == Fallback(primary.value, seed, url, resolve, fetch);
    FallbackFillsAbout(primary.value, seed, url, resolve, fetch, link, page);
  }

  lemma FallbackFillsAbout(d: Draft, seed: PageSnapshot, url: string, resolve: Resolver, fetch: Fetcher, link: string, page: PageSnapshot)
    requires d.about == ""
    requires FallbackLinks(seed, url, resolve).Success?
    requires AboutTarget(FallbackLinks(seed, url, resolve).value) == Some(link)
    requires fetch(link) == Some(page)
    requires Fallback(d, seed, url, resolve, fetch).Success?
    ensures Fallback(d, seed, url, resolve, fetch).value.about == AboutPageAbout(page)
  {
    var links := FallbackLinks(seed, url, resolve).value;
    var after := d.(about := AboutPageAbout(page));
    assert AboutFallback(d, links, fetch) == Success(after);
    assert NeedsFallback(d);
    assert Fallback(d, seed, url, resolve, fetch)
      == if after.phone == "" || after.email == "" then ContactFallback(after, links, fetch) else Success(after);
  }

  /** An empty phone is taken from the first Contact-like link's page; a filled one is kept. */
  lemma PhoneFromContactPage(url: string, userId: string, resolve: Resolver, fetch: Fetcher, link: string, page: PageSnapshot)
    requires fetch(url).Some?
    requires var seed := fetch(url).value;
      && Phone(seed) == ""
      && FallbackLinks(seed, url, resolve).Success?
      && ContactTarget(FallbackLinks(seed, url, resolve).value) == Some(link)
    requires fetch(link) == Some(page)
    requires ScrapeWebsite(url, userId, resolve, fetch).Success?
    ensures ScrapeWebsite(url, userId, resolve, fetch).value.phone == Phone(page)
  {
    var seed := fetch(url).value;
    var primary := Primary(seed, url, userId, resolve);
    assert primary.Success?;
    assert ScrapeWebsite(url, userId, resolve, fetch) == Fallback(primary.value, seed, url, resolve, fetch);
    FallbackFillsPhone(primary.value, seed, url, resolve, fetch, link, page);
  }

  lemma FallbackFillsPhone(d: Draft, seed: PageSnapshot, url: string, resolve: Resolver, fetch: Fetcher, link: string, page: PageSnapshot)
    requires d.phone == ""
    requires FallbackLinks(seed, url, resolve).Success?
    requires ContactTarget(FallbackLinks(seed, url, resolve).value) == Some(link)
    requires fetch(link) == Some(page)
    requires Fallback(d, seed, url, resolve, fetch).Success?
    ensures Fallback(d, seed, url, resolve, fetch).value.phone == Phone(page)
  {
    var links := FallbackLinks(seed, url, resolve).value;
    var afterAbout := if d.about == "" then AboutFallback(d, links, fetch) else Success(d);
    assert afterAbout.Success?;
    assert afterAbout.value.phone == "";
    assert ContactFallback(afterAbout.value, links, fetch).value.phone == Phone(page);
  }

  /** An empty email is taken from the first Contact-like link's page; a filled one is kept. */
  lemma EmailFromContactPage(url: string, userId: string, resolve: Resolver, fetch: Fetcher, link: string, page: PageSnapshot)
    requires fetch(url).Some?
    requires var seed := fetch(url).value;
      && Email(seed) == ""
      && FallbackLinks(seed, url, resolve).Success?
      && ContactTarget(FallbackLinks(seed, url, resolve).value) == Some(link)
    requires fetch(link) == Some(page)
    requires ScrapeWebsite(url, userId, resolve, fetch).Success?
    ensures ScrapeWebsite(url, userId, resolve, fetch).value.email == Email(page)
  {
    var seed := fetch(url).value;
    var primary := Primary(seed, url, userId, resolve);
    assert primary.Success?;
    assert ScrapeWebsite(url, userId, resolve, fetch) == Fallback(primary.value, seed, url, resolve, fetch);
    FallbackFillsEmail(primary.value, seed, url, resolve, fetch, link, page);
  }

  lemma FallbackFillsEmail(d: Draft, seed: PageSnapshot, url: string, resolve: Resolver, fetch: Fetcher, link: string, page: PageSnapshot)
    requires d.email == ""
    requires FallbackLinks(seed, url, resolve).Success?
    requires ContactTarget(FallbackLinks(seed, url, resolve).value) == Some(link)
    requires fetch(link) == Some(page)
    requires Fallback(d, seed, url, resolve, fetch).Success?
    ensures Fallback(d, seed, url, resolve, fetch).value.email == Email(page)
  {
    var links := FallbackLinks(seed, url, resolve).value;
    var afterAbout := if d.about == "" then AboutFallback(d, links, fetch) else Success(d);
    assert afterAbout.Success?;
    assert afterAbout.value.email == "";
    assert ContactFallback(afterAbout.value, links, fetch).value.email == Email(page);
  }

  /** An unresolvable candidate `href` rejects a scrape that needs the fallback, naming the first such `href`. */
  lemma FallbackResolutionRejects(url: string, userId: string, resolve: Resolver, fetch: Fetcher)
    requires fetch(url).Some? && Primary(fetch(url).value, url, userId, resolve).Success?
    requires NeedsFallback(Primary(fetch(url).value, url, userId, resolve).value)
    requires FallbackLinks(fetch(url).value, url, resolve).Failure?
    ensures ScrapeWebsite(url, userId, resolve, fetch) == Failure(FallbackLinks(fetch(url).value, url, resolve).error)
    ensures ScrapeWebsite(url, userId, resolve, fetch).error.InvalidUrl?
  {
  }

  /** A missing about whose About-like page fails to render rejects the scrape, naming that page. */
  lemma AboutNavigationRejects(url: string, userId: string, resolve: Resolver, fetch: Fetcher, link: string)
    requires fetch(url).Some?
    requires var seed := fetch(url).value;
      && About(seed) == ""
      && FallbackLinks(seed, url, resolve).Success?
      && AboutTarget(FallbackLinks(seed, url, resolve).value) == Some(link)
    requires fetch(link).None?
    ensures ScrapeWebsite(url, userId, resolve, fetch).Failure?
  {
    var seed := fetch(url).value;
    var primary := Primary(seed, url, userId, resolve);
    if primary.Success? {
      var links := FallbackLinks(seed, url, resolve).value;
      assert primary.value.about == "";
      assert !Renders(AboutTarget(links), fetch);
    }
  }

  /** A missing phone or email whose Contact-like page fails to render rejects the scrape. */
  lemma ContactNavigationRejects(url: string, userId: string, resolve: Resolver, fetch: Fetcher, link: string)
    requires fetch(url).Some?
    requires var seed := fetch(url).value;
      && (Phone(seed) == "" || Email(seed) == "")
      && FallbackLinks(seed, url, resolve).Success?
      && ContactTarget(FallbackLinks(seed, url, resolve).value) == Some(link)
    requires fetch(link).None?
    ensures ScrapeWebsite(url, userId, resolve, fetch).Failure?
  {
    var seed := fetch(url).value;
    var primary := Primary(seed, url, userId, resolve);
    if primary.Success? {
      var links := FallbackLinks(seed, url, resolve).value;
      assert primary.value.phone == "" || primary.value.email == "";
      assert !Renders(ContactTarget(links), fetch);
    }
  }

  /** The `'Unknown'` default never survives: a page with no site name, title or h1 gets the name `""`. */
  lemma NameCanBeEmpty(p: PageSnapshot)
    requires p.ogSiteName.GetOr("") == "" && p.titles == [] && p.h1s == []
    ensures InitialName(p) == "Unknown" && Name(p) == ""
  {
    NoTitleText(p);
    OnlyFallbackLeft(Trim(FirstText(p.titles)), "Unknown");
    NoCandidateLeft(p.ogSiteName.GetOr(""), Trim(Join(p.titles, "")), Trim(FirstText(p.h1s)));
  }

  lemma NoTitleText(p: PageSnapshot)
    requires p.titles == [] && p.h1s == []
    ensures Trim(FirstText(p.titles)) == "" && Trim(Join(p.titles, "")) == "" && Trim(FirstText(p.h1s)) == ""
  {
    assert Join(p.titles, "") == "";
  }

  lemma OnlyFallbackLeft(a: string, b: string)
    requires a == "" && b != ""
    ensures FirstNonEmpty([a, b]) == b
  {
    FirstNonEmptySkip([a, b]);
    assert [a, b][1..] == [b];
    FirstNonEmptyHead([b]);
  }

  lemma NoCandidateLeft(a: string, b: string, c: string)
    requires a == "" && b == "" && c == ""
    ensures FirstNonEmpty([a, b, c]) == ""
  {
  }

  /** The social scan keeps document order: a later anchor lands after every earlier one. */
  lemma {:induction false} HrefsWhereAppend(anchors: seq<Option<string>>, x: Option<string>, keep: Option<string> -> bool)
    requires forall h :: keep(h) ==> h.Some?
    ensures HrefsWhere(anchors + [x], keep) == HrefsWhere(anchors, keep) + (if keep(x) then [x.value] else [])
  {
    if |anchors| > 0 {
      assert (anchors + [x])[1..] == anchors[1..] + [x];
      HrefsWhereAppend(anchors[1..], x, keep);
    } else {
      assert anchors + [x] == [x];
    }
  }

  /** Two anchors to the same social profile give two social links. */
  lemma SocialDuplicatesKept(p: PageSnapshot, h: string)
    requires p.anchors == [Some(h), Some(h)] && IsSocialHref(Some(h))
    ensures SocialHrefs(p) == [h, h]
  {
    assert p.anchors[1..] == [Some(h)];
  }
}

=== FILE: user_schema.dfy ===
/**
 * The stored user account and the validation the model applies when one is
 * created: `name` and `email` are required, `email` is lower-cased before it
 * is stored, `otpVerified` defaults to false and `loginProvider` to `local`.
 * Dates are integer milliseconds since the epoch.
 */
module UserSchema {
  import opened Wrappers
  import opened JsString

  datatype User = User(
    id: string,
    name: string,
    email: string,
    password: Option<string>,
    otp: Option<string>,
    otpVerified: bool,
    loginProvider: string,
    picture: Option<string>,
    otpExpiresAt: Option<int>)

  /** The object handed to the model constructor: any path may be left out. */
  datatype UserInput = UserInput(
    name: Option<string>,
    email: Option<string>,
    password: Option<string>,
    otp: Option<string>,
    otpVerified: Option<bool>,
    loginProvider: Option<string>,
    picture: Option<string>,
    otpExpiresAt: Option<int>)

  /** Why saving a new user fails. */
  datatype ValidationError = NameRequired | EmailRequired

  /** A required string path is satisfied only by a non-empty string. */
  predicate Given(o: Option<string>) {
    o.Some? && o.value != ""
  }

  /** Validate and build the stored user, applying the lower-case setter and the defaults. */
  function Create(input: UserInput, id: string): (r: Result<User, ValidationError>)
    ensures r.Success? <==> Given(input.name) && Given(input.email)
    ensures !Given(input.name) ==> r == Failure(NameRequired)
    ensures r.Success? ==> var u := r.value;
      && u.id == id
      && u.name == input.name.value
      && u.email == ToLower(input.email.value) && u.email != ""
      && u.otpVerified == input.otpVerified.GetOr(false)
      && u.loginProvider == input.loginProvider.GetOr("local")
      && u.password == input.password && u.otp == input.otp
      && u.picture == input.picture && u.otpExpiresAt == input.otpExpiresAt
  {
    if !Given(input.name) then Failure(NameRequired)
    else if !Given(input.email) then Failure(EmailRequired)
    else
      Success(User(
        id, input.name.value, ToLower(input.email.value), input.password, input.otp,
        input.otpVerified.GetOr(false), input.loginProvider.GetOr("local"),
        input.picture, input.otpExpiresAt))
  }

  /** The stored email is already in lower case: setting it again changes nothing. */
  lemma CreatedEmailIsLower(input: UserInput, id: string)
    requires Create(input, id).Success?
    ensures var u := Create(input, id).value; ToLower(u.email) == u.email
  {
    ToLowerIdempotent(input.email.value);
  }

  /** Users keyed by their stored email, which the unique index makes a key. */
  type Store = map<string, User>

  /** The key under which an email is looked up: the filter value goes through the same setter. */
  function Key(email: string): (k: string)
    ensures |k| == |email|
    ensures ToLower(k) == k
  {
    ToLowerIdempotent(email);
    ToLower(email)
  }

  /** A user in a consistent state: verified users have no pending code, unverified users have one that expires. */
  predicate ValidUser(key: string, u: User) {
    && key == u.email && key != "" && ToLower(key) == key
    && u.name != ""
    && (u.otpVerified ==> u.otpExpiresAt.None?)
    && (!u.otpVerified ==> u.otp.Some? && u.otpExpiresAt.Some?)
  }

  /** Every stored user is consistent and stored under its own email. */
  predicate WellFormed(store: Store) {
    forall k :: k in store ==> ValidUser(k, store[k])
  }
}

=== FILE: wrappers.dfy ===
/** Optional values and success/failure results shared by every module of the model. */
module Wrappers {

  /** A value that may be absent (a JavaScript `undefined`). */
  datatype Option<+T> = None | Some(value: T) {

    /** The wrapped value, or `default` when absent. */
    function GetOr(default: T): T {
      match this
      case Some(v) => v
      case None => default
    }
  }

  /** Either a successful value or the error the source would have thrown. */
  datatype Result<+T, +E> = Success(value: T) | Failure(error: E) {

    predicate IsFailure() {
      Failure?
    }

    function PropagateFailure<U>(): Result<U, E>
      requires Failure?
    {
      Failure(error)
    }

    function Extract(): T
      requires Success?
    {
      value
    }
  }
}
